=== FILE: README.md ===
# Ingredient, health-report and recipe pipeline, modelled in Dafny

The system is a small Express back end around a remote text generator. The
endpoints send a prompt, and sometimes an image, to the generator. They recover
a JSON payload from the answer, normalize it into a fixed record shape, and save
it as an artifact file: `IngredienetList_<ms>.json` or `health_report_<ms>.json`.
The recipe endpoint reads the latest ingredient artifact back. At start-up the
server provisions a self-signed TLS pair and serves HTTPS next to HTTP.

This project models that core as pure functions over an immutable JSON datatype:

- `Fence`: recovering the candidate JSON text from a generator answer. It
  reproduces the leftmost, lazy semantics of the two fence regexes.
- `Records`: the three normalizers:
  - `UniversalIngredient`
  - the merge-and-stamp `UniversalHealthReport` of server.js
  - the field-defaulting `UniversalHealthReport` of doc_gemini.js
- `Artifacts`: artifact names and the choice of the latest ingredient scan.
- `Generation`: the shape of generator requests and prompt texts.
- `Http`: responses and the ordered filesystem effects of a request.
- `ServerHandlers`, `VisionHandlers`, `DocHandlers`: each endpoint's status
  decisions and the order of its writes and unlinks.
- `Pipeline`: how a scan saved in the directory the recipe endpoint lists feeds it.
- `TlsBootstrap`: certificate provisioning and listener start-up.
- `Strings`, `JsonValue`, `Results`: supporting definitions:
  - first-occurrence search, decimal rendering, code-point order, `trim`, join/split
  - JavaScript truthiness, `??` and `String(v)`

The generator, `json5.parse`, `JSON.parse`, `JSON.stringify`, base64 decoding,
the certificate generator and the HTTPS server's acceptance of a key pair are
oracles. They are function-typed parameters, gathered in `Http.Env` for the
request handlers. The clock is two parameters:

- `ts`, standing for `Date.now()`
- `now`, standing for `new Date().toISOString()`

A request's files are a map from path to contents. A handler returns the
response together with the list of `WriteFile`/`Unlink` effects in the order it
performs them.

Behaviours of the code that are easy to get wrong, all modelled as the code has them:

- A json-tagged fence is preferred over an earlier untagged one. The two
  patterns are tried one after the other, not as one optional tag.
- Normalization can fail: a `null` payload makes `UniversalIngredient` and the
  doc_gemini.js report throw, and the request answers 500.
- `last_updated` is re-stamped only by server.js. doc_gemini.js keeps a payload's
  non-null value, so its normalization is idempotent in every field.
- Missing ingredient fields default to `{}`, not to empty strings.
- doc_gemini.js answers a request without a file with 500, not 400.
- server.js removes the upload before it parses the answer. doc_gemini.js and
  vision_module.js remove it only after a successful save, so after a failure the
  upload remains.
- Name order equals time order only for timestamps of equal decimal width
  (`Artifacts.NameOrderIsTimeOrder`).
- server.js's report drops a `__proto__` entry of the payload: `Object.assign`
  stores entries by assignment, which treats that name as the prototype.
- An `ingredients` value holding an object with its own `toString` key, at the
  top level or inside an array, cannot be rendered as text. The parse-text and
  recipe requests then answer 500 without asking the generator.

## Model

| member | source | states |
|---|---|---|
| Fence.FirstFenceIsLeftmostMatch | server.js:121 | the two-search extraction fails exactly when the regex has no match, and otherwise yields the interior of the match with the leftmost opening and the nearest closing marker |
| Fence.NoLaterOpeningCloses | server.js:121 | if no closing marker follows the first opening marker, no opening marker at all starts a match |
| Fence.FirstFence | server.js:121 | a match's interior is shorter than the response by at least the lengths of its opening and closing markers |
| Fence.ExtractCandidate | server.js:121-122 | the candidate is never longer than the response, and when it is not the whole response it is a fence interior, shorter by at least "```\n" and "\n```" |
| Fence.ExtractCandidateSpec | server.js:121-122 | the candidate is the leftmost json-tagged match's interior if there is one, else the leftmost untagged match's interior, else the whole text unchanged |
| Fence.FirstFenceWrapped | server.js:121 | `p + open + s + "\n```" + q`, with no opening marker in `p` and no closing marker in `s`, yields exactly `s` |
| Fence.ExtractWrapped | server.js:121-122 | a json fence embedded in arbitrary prose is recovered exactly |
| Fence.JsonFencePreferred | server.js:121-122 | example: in "```\nA\n```\n```json\nB\n```" the later json fence's "B" is chosen over the earlier untagged fence; the general rule is `Fence.ExtractCandidateSpec` |
| Fence.JsonOpenUnbordered | server.js:121 | no proper suffix of "```json\n" is also its prefix, so occurrences of the marker cannot overlap |
| Fence.CloseUnbordered | server.js:121 | occurrences of the closing marker "\n```" cannot overlap |
| Records.UniversalIngredient | server.js:108-116 | exactly the five ingredient keys; each keeps the payload's value, falsy ones included, unless it is absent or null, when it becomes `{}`; a null payload throws reading `item_name` |
| Records.IngredientIdempotent | vision_module.js:35-43 | normalizing a normalized ingredient record gives it back unchanged |
| Records.IngredientNameFalsyOnlyIfPayloadFalsy | server.js:110 | a normalized `item_name` is falsy only when the payload held `false`, `0` or `""` |
| Records.OwnEnumerable | server.js:172 | `Object.assign` reads an object's entries, array and string elements under their decimal index, and nothing from null, booleans or numbers |
| Records.IndexMap | server.js:172 | the index-keyed entries hold element `i` under `Decimal(i)` and no other key |
| Records.MergeAndStamp | server.js:170-175 | the report has the payload's own keys except `__proto__`, plus `last_updated`; `__proto__` is never a key of the report; `last_updated` is `now`; every other value is the payload's |
| Records.MergeAndStampObject | server.js:170-175 | for an object payload the report is the payload without a `__proto__` entry and with `last_updated := now`; a null payload gives `{ last_updated: now }` |
| Records.MergeAndStampDropsProto | server.js:172 | example: a payload `{"__proto__": {}, "a": 1}` is saved as `{"a": 1, "last_updated": now}` |
| Records.MergeAndStampRestamp | server.js:170-175 | normalizing a saved report again at a later time equals normalizing the original payload at that time: only `last_updated` moves |
| Records.DocHealthReport | doc_gemini.js:34-50 | exactly the thirteen fields; present non-null values are kept; missing list fields become `[]`, other fields `{}`, `last_updated` becomes now; a null payload throws |
| Records.DocHealthLastUpdated | doc_gemini.js:48 | `last_updated` keeps the payload's non-null value and is the current time otherwise |
| Records.DocHealthIdempotent | doc_gemini.js:36-48 | normalizing the report again, at any other time, changes nothing |
| Records.HealthReportsDisagreeOnLastUpdated | doc_gemini.js:48 | on a payload carrying another `last_updated`, server.js's report overwrites it and doc_gemini.js's keeps it |
| JsonValue.Truthy | server.js:142 | a value is falsy exactly when it is `null`, `false`, `0` or `""`; every array and object is truthy |
| JsonValue.ToJsString | server.js:256-261 | `String(v)` in a template throws exactly when `ConversionThrows` holds: an object with an own `toString` key, directly or as an array element at any depth. Otherwise a string is itself, a non-negative integer its decimal digits, an empty array "", a one-element array holding a non-null element that element's string, and any other object "[object Object]" |
| JsonValue.Property | server.js:110 | `v.key` on a non-null value is an own key's value of an object, otherwise undefined |
| JsonValue.Coalesce | server.js:110 | `a ?? b` replaces only undefined and null |
| Strings.Trim | vision_module.js:73 | trimming never lengthens a string and leaves one that begins and ends with non-space characters unchanged |
| Strings.TrimSpec | doc_gemini.js:66 | `trim` removes a whitespace prefix and a whitespace suffix and leaves no whitespace at either end |
| Strings.TrimIdempotent | vision_module.js:73 | trimming twice is trimming once |
| Artifacts.TimestampRoundTrip | server.js:126 | the timestamp can be read back from an artifact's name |
| Artifacts.ArtifactName | server.js:126 | an artifact name starts with its prefix and ends with ".json" |
| Artifacts.IsIngredientArtifact | server.js:243 | no name that passes the listing filter is a health report name |
| Artifacts.ArtifactNamesAndFilter | server.js:243 | every ingredient artifact name passes the listing filter and no health report name does |
| Artifacts.MaximumExists | server.js:246-247 | a non-empty set of names has a greatest element in sort order |
| Artifacts.Latest | server.js:243-254 | none exactly when no name passes the filter; otherwise a listed name that passes it and is greatest in sort order among those that do |
| Artifacts.LatestInListing | server.js:243-247 | one pass over the listing in any order, keeping the greatest matching name, selects the same file as `Latest` |
| Artifacts.NameOrderIsTimeOrder | server.js:246 | for timestamps of equal decimal width, artifact names sort as the timestamps do |
| Artifacts.LatestIsNewestSave | server.js:243-247 | among saved scans of equal-width timestamps, and any other files, the latest is the newest save |
| Generation.MimeOrDefault | server.js:63 | the MIME type sent is always truthy: the caller's if truthy, otherwise image/jpeg |
| Generation.Content | server.js:59-69 | with an image the request is the prompt plus an inline image part; without one it is the prompt alone |
| Generation.DocumentPrompt | vision_module.js:59 | the document text can be cut back out of the prompt that embeds it |
| Generation.IngredientListRoundTrip | vision_module.js:116 | an ingredient list joined with ", " splits back into the same list when no item contains ", " |
| Generation.IngredientsText | server.js:157-158 | rendering `ingredients` throws exactly when its string conversion does; a non-array reaches the prompt as its string conversion; an array is joined with ", " (`Generation.IngredientListRoundTrip`) |
| Generation.RecipePrompt | server.js:261 | the recipe prompt is the fixed template and the "Ingredients Available: " header, then the ingredients text; `RecipeIngredientsOf` cuts that text back out |
| Generation.RecipeIngredientsOfInverse | server.js:261 | whatever `RecipeIngredientsOf` cuts out of a text rebuilds that text as a recipe prompt, so recipe prompts and ingredient texts correspond one to one |
| Http.GenerateTrimmed | vision_module.js:70-73 | a generation fails exactly when the backend fails; otherwise its text is the backend's with only surrounding whitespace removed |
| Http.WriteThenUnlink | vision_module.js:152-154 | writing an artifact and then unlinking an upload leaves the artifact and removes the upload |
| ServerHandlers.ParseGeneratedFenced | server.js:121-123 | json5 is given exactly the payload of a json fence, whatever prose surrounds it, when the prose before opens no json fence and the payload holds no closing marker |
| ServerHandlers.ProcessIngredientResponse | server.js:118-137 | 200 exactly when the candidate parses to a non-null payload, with the normalized record saved under `IngredienetList_<ts>.json`; otherwise 500 "Error parsing generated report data: " plus the error message, with nothing written |
| ServerHandlers.SavedIngredientIsResponseData | server.js:126-132 | the saved file holds exactly the record returned in the response |
| ServerHandlers.ParseImage | server.js:139-150 | 400 "Image and mimeType required" exactly when `image` or `mimeType` is falsy; a base64 or generation failure answers 500 "Error processing image"; otherwise the answer is `ProcessIngredientResponse`'s on the generated text; a 200 writes only the ingredient artifact, holding exactly the five ingredient keys |
| ServerHandlers.ParseImageRequest | server.js:144-145 | the request sent is the vision prompt with the decoded image labelled with the client's MIME type |
| ServerHandlers.ParseTextPrompt | server.js:157-158 | no prompt exactly when rendering `ingredients` throws; otherwise the ingredient text can be recovered from the prompt sent |
| ServerHandlers.ParseText | server.js:152-165 | 400 "Ingredients list required" exactly when `ingredients` is falsy; an `ingredients` value whose rendering throws, or a failed generation, answers 500 "Error processing text"; otherwise the answer is `ProcessIngredientResponse`'s on the generated text; a 200 writes only the ingredient artifact |
| ServerHandlers.DocRequest | server.js:187-200 | an `image/` upload is sent as an image after the prompt; anything else is embedded as text, recoverable from the prompt |
| ServerHandlers.DocParse | server.js:177-220 | 400 without a file; once generation succeeds the upload is unlinked first, before parsing; 200 exactly when parsing succeeds, then unlink and write the stamped report |
| ServerHandlers.DocParseStampsReport | server.js:173 | a saved report carries the request's time, and a null payload yields `{ last_updated }` alone |
| ServerHandlers.DocParseRemovesUpload | server.js:203 | after a successful generation the upload is gone, whether or not the parse succeeds |
| ServerHandlers.ScanText | server.js:248-251 | reading a scan fails exactly on a parse error or a null file; otherwise it yields the serialized truthy `item_name`, or the whole serialized record |
| ServerHandlers.RecipeSource | server.js:238-259 | a truthy `existingFile` uses the latest scan, and no scan means 404; otherwise truthy `ingredients` are rendered as text, and are unconvertible exactly when that rendering throws; otherwise there is no input |
| ServerHandlers.RecipeGenerate | server.js:236-274 | statuses 404, 400 and 500 carry their error bodies; an unreadable scan or unconvertible `ingredients` answers 500; 200 exactly when there is ingredient text and generation and parsing succeed, with `{ success: true, recipes }`; nothing is ever written |
| ServerHandlers.ExistingFileTakesPrecedence | server.js:241-255 | with a truthy `existingFile` the outcome does not depend on `ingredients` |
| ServerHandlers.ScanFallbackOnlyForFalsyName | server.js:250-251 | for a saved scan, the whole-record fallback is used only when the payload's `item_name` was `false`, `0` or `""` |
| ServerHandlers.RecipeJoinsWithComma | server.js:256-261 | example: `["egg", "milk"]` reaches the recipe prompt as "egg,milk" through `ServerHandlers.RecipeSource`, whereas parse-text sends "egg, milk" |
| ServerHandlers.OwnToStringRejectedByParseText | server.js:157-163 | example: ingredients `["egg", {"toString": 1}]` make parse-text answer 500 "Error processing text" with nothing written |
| ServerHandlers.OwnToStringRejectedByRecipe | server.js:261-272 | example: the same ingredients make the recipe endpoint answer 500 "Error generating recipes" |
| VisionHandlers.SaveIngredient | vision_module.js:149-155 | a non-null payload is saved as an ingredient artifact before the clean-up effects; a null one writes nothing and answers the handler's failure |
| VisionHandlers.ImageRequest | vision_module.js:48-56 | the request is the prompt with an inline image whose MIME type is truthy, defaulting to image/jpeg |
| VisionHandlers.TextRequest | vision_module.js:57-60 | no request exactly when rendering `ingredients` throws, in the join or in the template; otherwise the ingredient text is embedded in the prompt and recoverable from it |
| VisionHandlers.ParseImageAsWritten | vision_module.js:83-109 | as written: 400 exactly when a field is missing, otherwise 500, and never a write |
| VisionHandlers.ParseImage | vision_module.js:83-109 | as intended: 200 exactly when decoding, generation and parsing succeed on a non-null payload, answering and writing only the ingredient artifact, which holds `UniversalIngredient` of that payload |
| VisionHandlers.ParseImageReferenceError | vision_module.js:100 | the code as written answers 500 exactly where the intended handler saves, and agrees with it everywhere else |
| VisionHandlers.ParseTextAsWritten | vision_module.js:110-135 | as written: 400 exactly when `ingredients` is falsy, otherwise 500, and never a write; an unrenderable `ingredients` answers 500 "Error processing text" |
| VisionHandlers.ParseText | vision_module.js:110-135 | as intended: 200 exactly when `ingredients` can be rendered and generation and parsing succeed on a non-null payload, answering and writing only the ingredient artifact, which holds `UniversalIngredient` of that payload; an unrenderable `ingredients` answers 500 "Error processing text" |
| VisionHandlers.ParseTextReferenceError | vision_module.js:126 | the code as written answers 500 exactly where the intended handler saves |
| VisionHandlers.ParseTextCounterexample | vision_module.js:126 | ingredients `["egg"]` answered by `{"item_name":"egg"}`: the code as written answers 500, the intended handler saves |
| VisionHandlers.ParseUploadedImage | vision_module.js:136-160 | a missing upload, a failed generation or a `null` payload answers 500 "Error processing uploaded image"; a json5 failure answers 500 with the parser's message; 200 exactly when generation and parsing succeed on a non-null payload, answering and saving `UniversalIngredient` of that payload, and the artifact is written before the upload is unlinked; a failure writes and removes nothing |
| DocHandlers.DocumentRequest | doc_gemini.js:52-54 | the request is a text prompt from which the document text can be cut back out |
| DocHandlers.ParseDocument | doc_gemini.js:76-102 | a missing upload, a failed generation or a `null` payload answers 500 "Error processing document"; a json5 failure answers 500 with the parser's message; a non-null payload is answered with its thirteen-field `DocHealthReport` at the request's time; every answer is 200 or 500; a 500 writes and removes nothing, so the upload stays behind |
| DocHandlers.ParseDocumentSucceeds | doc_gemini.js:81-91 | 200 exactly when the model answers and json5 parses the answer to something other than `null`; a json5 failure answers 500 with the parser's message |
| DocHandlers.ParseDocumentSaved | doc_gemini.js:91-97 | a success answers with the saved file name and the payload's thirteen-field report at the request's time, and its effects write that report before unlinking the upload |
| DocHandlers.ParseDocumentTimestamp | doc_gemini.js:48 | the saved report keeps the payload's `last_updated`, and uses the request's time only when that is missing |
| DocHandlers.ParseDocumentFiles | doc_gemini.js:92-96 | after a success the report is on disk under its name and the upload is gone |
| Pipeline.ParsersSaveScans | server.js:126-130 | every parse endpoint that answers 200 has written its record as `IngredienetList_<ts>.json`, removing at most an upload |
| Pipeline.SavedScanFiles | server.js:130 | after a saved scan the artifact holds the serialized record and no other file appears |
| Pipeline.OnlyScanIsLatest | server.js:243-247 | in a directory without scans, a single new scan is the latest |
| Pipeline.SavedScanFeedsRecipe | server.js:241-251 | a saved scan is what the next recipe request reads: its serialized `item_name`, or the whole record when that name is falsy |
| TlsBootstrap.EnsureCertDir | server.js:281-284 | the certificate directory exists afterwards and no file changes |
| TlsBootstrap.HttpsOptions | server.js:286-311 | the stored pair when both files exist, with nothing written; otherwise the generator's pair, key and certificate each written to its own path, or nothing when generation fails; no other file changes |
| TlsBootstrap.Start | server.js:281-324 | HTTP on 3000 always starts, last; HTTPS on 3443 starts only with an accepted pair, which is the pair on disk; without stored certificates that is the generator's pair, written to the key and certificate paths |
| TlsBootstrap.RestartReusesCertificates | server.js:292-297 | a second start-up after provisioning changes no file and serves the same pair, whatever the generator would do |
| TlsBootstrap.MissingCertificatesGenerated | server.js:298-316 | a missing or half-missing pair is replaced by the generated one and HTTPS serves it |
| TlsBootstrap.HttpWithoutCertificates | server.js:317-324 | without certificates the server still listens over HTTP and writes nothing |

## Findings

| source | as written | input that shows it | evidently intended | confidence | as-written member | corrected member |
|---|---|---|---|---|---|---|
| vision_module.js:100 | `new UniversalHealthReport(reportData)`, a class the module neither defines nor imports, so every request whose answer json5 accepts ends in a ReferenceError | any image whose answer parses, e.g. `{"item_name":"egg"}`: the answer is 500 "Error processing image" and nothing is saved | `new UniversalIngredient(reportData)`, as /parse-uploaded-image does | high; not executed | VisionHandlers.ParseImageAsWritten, VisionHandlers.ParseImageReferenceError | VisionHandlers.ParseImage |
| vision_module.js:126 | the same undefined class in /parse-text | ingredients `["egg"]` answered by `{"item_name":"egg"}`: the answer is 500 "Error processing text" and nothing is saved | `new UniversalIngredient(reportData)` | high; not executed | VisionHandlers.ParseTextAsWritten, VisionHandlers.ParseTextCounterexample | VisionHandlers.ParseText |

## Left out

- The generator and the network are oracles from request to text or failure. Model names, temperatures and token limits are not modelled.
- `json5.parse`, `JSON.parse`, `JSON.stringify` and `Buffer.from(…, 'base64')` are oracles. The lenient grammar is not verified. One `stringify` oracle stands for both the two-space indented serialization of saved artifacts and the compact one the recipe endpoint uses; the model does not tell the two layouts apart.
- The clock is two independent parameters, `ts` and `now`. The agreement between `Date.now()` and `toISOString()` is not modelled.
- Filesystem failures are not modelled. Reads, writes, unlinks and `mkdirSync` always succeed. An upload's text read and its buffer read are the same contents.
- JSON numbers are unbounded integers in the model. json5 also accepts fractions, `NaN` and `Infinity`, and JavaScript numbers are doubles. None of these is modelled, and the lines below say which promises that weakens.
- Records.IngredientNameFalsyOnlyIfPayloadFalsy: holds only for integer payloads. `??` keeps an `item_name` of `NaN`, which is falsy too.
- ServerHandlers.ScanFallbackOnlyForFalsyName: holds only for integer payloads. `JSON.stringify` writes a `NaN` name as `null`, so a NaN name also takes the whole-record fallback at server.js:250-251.
- JsonValue.ToJsString: prints every decimal digit of an integer. JavaScript loses precision above 2^53 and prints numbers of 1e21 and beyond in exponent form, as in "1e+21".
- Strings are sequences of Unicode scalar values. JavaScript strings are sequences of UTF-16 code units, so lone surrogates cannot be represented, and lengths and indices count characters rather than code units.
- Pipeline.SavedScanFeedsRecipe: the model has one file map for every app. vision_module.js is a separate app that saves into its own working directory, while server.js lists its own directory, so a vision_module.js scan reaches the recipe endpoint only when both run from the same directory.
- Records.OwnEnumerable: copies a string payload one character per index. `Object.assign` copies one UTF-16 code unit per index, so the two differ on characters outside the Basic Multilingual Plane.
- JsonValue.Property: reads only own keys of objects. Prototype keys such as a string's `length` are not modelled; the handlers never read such keys by name. The one inherited key string conversion consults, `toString`, is covered by `JsonValue.ConversionThrows`.
- Artifacts.Latest: orders names by code point. JavaScript's default `sort()` orders by UTF-16 code unit, and the two differ only on characters outside the Basic Multilingual Plane, which artifact names never contain.
- Express routing, multer storage, CORS, static files and body-size limits are framework plumbing. The handlers receive the parsed body or the stored upload.
- The chatbot endpoint `/api/query` of server.js and the `/upload` and `/uploadPhoto` echo routes hold no pipeline logic and are not part of this model.
- chatbot_gemini.js, model_check.js, debug_cert.js and the browser code are not part of this model.
- The `API_KEY` check and the reading of the prompt files at start-up are left out. Prompts are parameters of the handlers.
- The certificate generator's X.509 contents are not modelled; it is an oracle returning a key pair or failing.
- A plain file named `certificates` is not modelled; it would make `existsSync` true while writes fail.
- Listen errors such as a port in use are not modelled. They are asynchronous and not caught by the start-up code.
- Concurrent requests and two saves in the same millisecond, which would share an artifact name, are not modelled.

=== FILE: artifacts.dfy ===
/**
 * Artifact files: the names the handlers give saved records
 * (`IngredienetList_<Date.now()>.json`, `health_report_<Date.now()>.json`, the
 * prefix typo included) and the choice of "the latest ingredient scan" in
 * /api/recipe/generate: filter the directory listing on prefix and suffix,
 * `sort()`, `reverse()`, take the first element.
 */
module Artifacts {
  import opened Results
  import opened Strings

  const IngredientPrefix := "IngredienetList_"
  const HealthPrefix := "health_report_"
  const JsonSuffix := ".json"

  /** The name of an artifact saved at time `ts`: the prefix, the decimal timestamp, then `.json`. */
  function ArtifactName(prefix: string, ts: nat): (r: string)
    ensures StartsWith(r, prefix) && EndsWith(r, JsonSuffix)
  {
    prefix + Decimal(ts) + JsonSuffix
  }

  /** Reads the timestamp back out of a file name, if it has the shape `prefix digits .json`. */
  function TimestampOf(name: string, prefix: string): (r: Option<nat>)
    ensures r.Some? ==> StartsWith(name, prefix) && EndsWith(name, JsonSuffix)
  {
    if StartsWith(name, prefix) && EndsWith(name, JsonSuffix) && |prefix| + |JsonSuffix| < |name| then
      var digits := name[|prefix|..|name| - |JsonSuffix|];
      if AllDigits(digits) then Some(DecimalValue(digits)) else None
    else None
  }

  /** A saved artifact's name gives back the timestamp it was made from. */
  lemma TimestampRoundTrip(prefix: string, ts: nat)
    ensures TimestampOf(ArtifactName(prefix, ts), prefix) == Some(ts)
  {
    var name := ArtifactName(prefix, ts);
    assert name[..|prefix|] == prefix;
    assert name[|name| - |JsonSuffix|..] == JsonSuffix;
    assert name[|prefix|..|name| - |JsonSuffix|] == Decimal(ts);
    DecimalRoundTrip(ts);
  }

  /**
   * The listing filter of the recipe endpoint: names with the ingredient prefix
   * and the `.json` extension. No health report name passes it.
   */
  predicate IsIngredientArtifact(f: string)
    ensures IsIngredientArtifact(f) ==> !StartsWith(f, HealthPrefix)
  {
    assert IngredientPrefix[0] != HealthPrefix[0];
    StartsWith(f, IngredientPrefix) && EndsWith(f, JsonSuffix)
  }

  /**
   * Every ingredient artifact name passes the filter, and no health report name
   * does, whatever the timestamps.
   */
  lemma ArtifactNamesAndFilter(ts: nat)
    ensures IsIngredientArtifact(ArtifactName(IngredientPrefix, ts))
    ensures !IsIngredientArtifact(ArtifactName(HealthPrefix, ts))
  {
    var name := ArtifactName(IngredientPrefix, ts);
    assert name[..|IngredientPrefix|] == IngredientPrefix;
    assert name[|name| - |JsonSuffix|..] == JsonSuffix;
    var other := ArtifactName(HealthPrefix, ts);
    assert other[0] == 'h';
  }

  predicate IsMaximum(m: string, names: set<string>) {
    forall f :: f in names ==> LexLe(f, m)
  }

  lemma {:induction false} MaximumExists(names: set<string>)
    requires names != {}
    ensures exists m :: m in names && IsMaximum(m, names)
    decreases |names|
  {
    var x :| x in names;
    if names == {x} {
      LexReflexive(x);
      assert IsMaximum(x, names);
    } else {
      var rest := names - {x};
      MaximumExists(rest);
      var m :| m in rest && IsMaximum(m, rest);
      LexTotal(x, m);
      if LexLe(x, m) {
        assert IsMaximum(m, names);
      } else {
        forall f | f in names
          ensures LexLe(f, x)
        {
          if f == x {
            LexReflexive(x);
          } else {
            LexTransitive(f, m, x);
          }
        }
        assert IsMaximum(x, names);
      }
    }
  }

  /** The directory entries that pass the ingredient filter, as a set. */
  function Candidates(dir: set<string>): (r: set<string>)
    ensures forall f :: f in r <==> f in dir && IsIngredientArtifact(f)
  {
    set f | f in dir && IsIngredientArtifact(f)
  }

  /**
   * The file the recipe endpoint reads: after sorting the filtered listing in
   * the default order and reversing it, the first entry, which is the greatest
   * ingredient artifact; nothing when none matches.
   */
  function Latest(dir: set<string>): (r: Option<string>)
    ensures r.None? <==> forall f :: f in dir ==> !IsIngredientArtifact(f)
    ensures r.Some? ==> r.value in dir && IsIngredientArtifact(r.value)
    ensures r.Some? ==> forall f :: f in dir && IsIngredientArtifact(f) ==> LexLe(f, r.value)
  {
    var candidates := Candidates(dir);
    if candidates == {} then None
    else
      MaximumExists(candidates);
      LexAntisymmetricAll();
      var m :| m in candidates && IsMaximum(m, candidates);
      Some(m)
  }

  /**
   * The listing scanned once in order, keeping the greatest name that passes
   * the filter: the same file `Latest` names, whatever order the listing is in.
   */
  method LatestInListing(listing: seq<string>) returns (r: Option<string>)
    ensures r == Latest(set f | f in listing)
  {
    r := None;
    var i := 0;
    while i < |listing|
      invariant 0 <= i <= |listing|
      invariant r.None? <==> forall k :: 0 <= k < i ==> !IsIngredientArtifact(listing[k])
      invariant r.Some? ==> r.value in listing[..i] && IsIngredientArtifact(r.value)
      invariant r.Some? ==> forall k :: 0 <= k < i && IsIngredientArtifact(listing[k]) ==> LexLe(listing[k], r.value)
    {
      var f := listing[i];
      if IsIngredientArtifact(f) {
        if r.None? {
          LexReflexive(f);
          r := Some(f);
        } else if !LexLe(f, r.value) {
          var best := r.value;
          LexTotal(f, best);
          LexReflexive(f);
          forall k | 0 <= k < i && IsIngredientArtifact(listing[k])
            ensures LexLe(listing[k], f)
          {
            LexTransitive(listing[k], best, f);
          }
          r := Some(f);
        }
      }
      assert listing[..i + 1] == listing[..i] + [f];
      i := i + 1;
    }
    assert listing[..i] == listing;
    var dir := set f | f in listing;
    var want := Latest(dir);
    if r.Some? {
      assert want.Some?;
      LexAntisymmetric(r.value, want.value);
    }
  }

  /**
   * Artifact names whose timestamps have the same number of digits sort in the
   * order of their timestamps.
   */
  lemma NameOrderIsTimeOrder(prefix: string, a: nat, b: nat)
    requires |Decimal(a)| == |Decimal(b)|
    ensures LexLe(ArtifactName(prefix, a), ArtifactName(prefix, b)) <==> a <= b
  {
    var x, y := Decimal(a), Decimal(b);
    assert ArtifactName(prefix, a) == prefix + (x + JsonSuffix);
    assert ArtifactName(prefix, b) == prefix + (y + JsonSuffix);
    LexAppend(prefix, x + JsonSuffix, prefix, y + JsonSuffix);
    LexAppend(x, JsonSuffix, y, JsonSuffix);
    LexReflexive(JsonSuffix);
    DecimalOrder(a, b);
    DecimalInjective(a, b);
  }

  /**
   * In a directory whose ingredient artifacts were all saved by the pipeline at
   * timestamps of equal width, the latest one is the newest save; other files
   * (health reports among them) never interfere.
   */
  lemma LatestIsNewestSave(others: set<string>, stamps: set<nat>, newest: nat)
    requires forall f :: f in others ==> !IsIngredientArtifact(f)
    requires newest in stamps
    requires forall t :: t in stamps ==> t <= newest && |Decimal(t)| == |Decimal(newest)|
    ensures Latest(others + set t | t in stamps :: ArtifactName(IngredientPrefix, t))
            == Some(ArtifactName(IngredientPrefix, newest))
  {
    var saved := set t | t in stamps :: ArtifactName(IngredientPrefix, t);
    var dir := others + saved;
    var want := ArtifactName(IngredientPrefix, newest);
    ArtifactNamesAndFilter(newest);
    assert want in dir;
    var r := Latest(dir);
    assert r.Some?;
    var got := r.value;
    assert got in saved;
    var t :| t in stamps && got == ArtifactName(IngredientPrefix, t);
    assert LexLe(want, got);
    NameOrderIsTimeOrder(IngredientPrefix, newest, t);
    assert t == newest;
  }
}

=== FILE: doc.dfy ===
/**
 * POST /parse-document of doc_gemini.js: the uploaded document is read as text,
 * embedded in the prompt, the trimmed answer parsed with json5, normalized to
 * the thirteen-field `UniversalHealthReport`, saved, and only then is the
 * upload removed.
 */
module DocHandlers {
  import opened Results
  import opened Strings
  import opened JsonValue
  import opened Records
  import opened Artifacts
  import opened Generation
  import opened Http

  const DocumentError := "Error processing document"

  /** The request sent for an upload: its text between the prompt and the closing instruction. */
  function DocumentRequest(u: Upload, prompt: string): (r: GenRequest)
    ensures r.TextPrompt?
    ensures DocumentTextOf(prompt, HealthInstruction, r.text) == Some(u.contents)
  {
    TextPrompt(DocumentPrompt(prompt, u.contents, HealthInstruction))
  }

  /** The trimmed answer of the model for an upload. */
  function DocumentAnswer(u: Upload, prompt: string, env: Env): Result<string> {
    GenerateTrimmed(env, DocumentRequest(u, prompt))
  }

  /**
   * A missing upload throws on `req.file.path` and answers 500; a parse error
   * answers 500 with its message; a `null` payload throws in the constructor
   * and answers 500 "Error processing document". No failure saves or removes
   * anything: the upload stays behind.
   */
  function ParseDocument(file: Option<Upload>, prompt: string, env: Env): (r: Outcome)
    ensures file.None? ==> r == Outcome(TextResponse(500, DocumentError), [])
    ensures r.response.status == 200 || r.response.status == 500
    ensures r.response.status == 500 ==> r.effects == []
    ensures file.Some? ==>
      var answer := DocumentAnswer(file.value, prompt, env);
      && (answer.Err? ==> r == Outcome(TextResponse(500, DocumentError), []))
      && (answer.Ok? && env.json5(answer.value).Err? ==>
            r == Outcome(TextResponse(500, ParseErrorPrefix + env.json5(answer.value).error), []))
      && (answer.Ok? && env.json5(answer.value) == Ok(JNull) ==> r == Outcome(TextResponse(500, DocumentError), []))
      && (answer.Ok? && env.json5(answer.value).Ok? && !env.json5(answer.value).value.JNull? ==>
            ResponseData(r.response) == JObject(DocHealthReport(env.json5(answer.value).value, env.now).value))
  {
    match file
    case None => Outcome(TextResponse(500, DocumentError), [])
    case Some(u) =>
      match DocumentAnswer(u, prompt, env)
      case Err(_) => Outcome(TextResponse(500, DocumentError), [])
      case Ok(text) =>
        match env.json5(text)
        case Err(message) => Outcome(TextResponse(500, ParseErrorPrefix + message), [])
        case Ok(payload) =>
          match DocHealthReport(payload, env.now)
          case Err(_) => Outcome(TextResponse(500, DocumentError), [])
          case Ok(report) =>
            var name := ArtifactName(HealthPrefix, env.ts);
            Outcome(SavedResponse(name, JObject(report)), [WriteFile(name, env.stringify(JObject(report))), Unlink(u.path)])
  }

  /**
   * An upload is answered 200 exactly when the model answers and json5 parses
   * the answer to something other than `null`; a parse failure answers 500 with
   * the parser's message.
   */
  lemma ParseDocumentSucceeds(u: Upload, prompt: string, env: Env)
    ensures ParseDocument(Some(u), prompt, env).response.status == 200 <==>
      && DocumentAnswer(u, prompt, env).Ok?
      && env.json5(DocumentAnswer(u, prompt, env).value).Ok?
      && !env.json5(DocumentAnswer(u, prompt, env).value).value.JNull?
    ensures DocumentAnswer(u, prompt, env).Ok? && env.json5(DocumentAnswer(u, prompt, env).value).Err? ==>
      ParseDocument(Some(u), prompt, env).response
        == TextResponse(500, ParseErrorPrefix + env.json5(DocumentAnswer(u, prompt, env).value).error)
  {
  }

  /**
   * A success answers with the saved thirteen-field report, the payload
   * normalized at the request's time, and its file name; its effects write that
   * report and then unlink the upload.
   */
  lemma ParseDocumentSaved(u: Upload, prompt: string, env: Env)
    requires ParseDocument(Some(u), prompt, env).response.status == 200
    ensures var r := ParseDocument(Some(u), prompt, env);
      var name := ArtifactName(HealthPrefix, env.ts);
      var data := ResponseData(r.response);
      var payload := env.json5(DocumentAnswer(u, prompt, env).value).value;
      && r.response == SavedResponse(name, data)
      && r.effects == [WriteFile(name, env.stringify(data)), Unlink(u.path)]
      && data.JObject? && data.fields.Keys == HealthFields
      && data == JObject(DocHealthReport(payload, env.now).value)
  {
  }

  /**
   * The saved report keeps a `last_updated` the payload already carries and
   * stamps the request's time only when it is missing or null.
   */
  lemma ParseDocumentTimestamp(u: Upload, prompt: string, env: Env)
    requires ParseDocument(Some(u), prompt, env).response.status == 200
    ensures var payload := env.json5(DocumentAnswer(u, prompt, env).value).value;
      var data := ResponseData(ParseDocument(Some(u), prompt, env).response);
      && (Present(payload, LastUpdated) ==> data.fields[LastUpdated] == payload.fields[LastUpdated])
      && (!Present(payload, LastUpdated) ==> data.fields[LastUpdated] == JString(env.now))
  {
    var payload := env.json5(DocumentAnswer(u, prompt, env).value).value;
    var report := DocHealthReport(payload, env.now).value;
    assert ResponseData(ParseDocument(Some(u), prompt, env).response) == JObject(report);
    DocHealthLastUpdated(payload, env.now);
  }

  /**
   * After a successful request the report is on disk under its name and the
   * upload is gone (the upload lives in another directory, so the names differ).
   */
  lemma ParseDocumentFiles(files: map<string, string>, u: Upload, prompt: string, env: Env)
    requires ParseDocument(Some(u), prompt, env).response.status == 200
    requires u.path != ArtifactName(HealthPrefix, env.ts)
    ensures var o := ParseDocument(Some(u), prompt, env);
      var after := ApplyEffects(files, o.effects);
      && ArtifactName(HealthPrefix, env.ts) in after
      && after[ArtifactName(HealthPrefix, env.ts)] == env.stringify(ResponseData(o.response))
      && u.path !in after
  {
    var o := ParseDocument(Some(u), prompt, env);
    ParseDocumentSaved(u, prompt, env);
    WriteThenUnlink(files, ArtifactName(HealthPrefix, env.ts), env.stringify(ResponseData(o.response)), u.path);
  }
}

=== FILE: fence.dfy ===
/**
 * Recovering the JSON candidate from generator output, as server.js does: it
 * first looks for a fence opened by a json-tagged marker, then for one opened
 * by an untagged marker, and hands the parser the first capture group of
 * whichever matched, or the whole text when neither did.
 *
 * Each regex is an opening marker, a lazily matched interior, and the closing
 * marker "\n```". `RegexMatch` below is the set of ways the pattern can match;
 * the engine reports the leftmost start and, for that start, the shortest interior.
 * `FirstFence` computes it by two left-to-right searches.
 */
module Fence {
  import opened Results
  import opened Strings

  const JsonOpen := "```json\n"
  const PlainOpen := "```\n"
  const Close := "\n```"

  /** The pattern `open([\s\S]*?)\n```` can match with the opening at `p` and the closing at `j`. */
  predicate RegexMatch(open: string, text: string, p: nat, j: nat) {
    OccursAt(open, text, p) && p + |open| <= j && OccursAt(Close, text, j)
  }

  /** The match the regex engine reports: leftmost opening, then shortest interior. */
  ghost predicate LeftmostLazy(open: string, text: string, p: nat, j: nat) {
    && RegexMatch(open, text, p, j)
    && (forall p': nat, j': nat :: RegexMatch(open, text, p', j') ==> p <= p')
    && (forall j': nat :: RegexMatch(open, text, p, j') ==> j <= j')
  }

  /** The first capture group of the leftmost match, if the pattern matches at all. */
  function FirstFence(open: string, text: string): (r: Option<string>)
    ensures r.Some? ==> |r.value| + |open| + |Close| <= |text|
  {
    match FindFrom(open, text, 0)
    case None => None
    case Some(p) =>
      match FindFrom(Close, text, p + |open|)
      case None => None
      case Some(j) => Some(text[p + |open|..j])
  }

  /**
   * `FirstFence` is what the regex engine reports: it fails exactly when the
   * pattern has no match, and otherwise yields the interior of the match with
   * the leftmost opening and, for it, the nearest closing marker.
   */
  lemma FirstFenceIsLeftmostMatch(open: string, text: string)
    ensures FirstFence(open, text).None? <==> forall p: nat, j: nat :: !RegexMatch(open, text, p, j)
    ensures FirstFence(open, text).Some? ==>
      exists p: nat, j: nat :: LeftmostLazy(open, text, p, j) && FirstFence(open, text).value == text[p + |open|..j]
  {
    match FindFrom(open, text, 0)
    case None =>
    case Some(p) =>
      match FindFrom(Close, text, p + |open|)
      case None =>
        NoLaterOpeningCloses(open, text, p);
      case Some(j) =>
        assert LeftmostLazy(open, text, p, j);
  }

  /**
   * When the first opening marker has no closing marker after it, no later
   * opening marker has one either: a closing marker after a later opening is
   * also after the first one. So trying only the first opening is the
   * leftmost-match search.
   */
  lemma NoLaterOpeningCloses(open: string, text: string, p: nat)
    requires FindFrom(open, text, 0) == Some(p)
    requires FindFrom(Close, text, p + |open|).None?
    ensures forall p': nat, j: nat :: !RegexMatch(open, text, p', j)
  {
    forall p': nat, j: nat
      ensures !RegexMatch(open, text, p', j)
    {
      if OccursAt(open, text, p') && p' + |open| <= j {
        assert p <= p';
      }
    }
  }

  /** The string handed to the parser: json-tagged fence, else untagged fence, else the whole text. */
  function ExtractCandidate(text: string): (r: string)
    ensures |r| <= |text|
    ensures r != text ==> |r| + |PlainOpen| + |Close| <= |text|
  {
    match FirstFence(JsonOpen, text)
    case Some(s) => s
    case None =>
      match FirstFence(PlainOpen, text)
      case Some(s) => s
      case None => text
  }

  /**
   * The candidate in terms of regex matches alone: the interior of the leftmost
   * json-tagged match when there is one (whatever untagged fences come earlier),
   * otherwise the interior of the leftmost untagged match, otherwise the whole text.
   */
  lemma ExtractCandidateSpec(text: string)
    ensures (exists p: nat, j: nat :: RegexMatch(JsonOpen, text, p, j)) ==>
      exists p: nat, j: nat :: LeftmostLazy(JsonOpen, text, p, j) && ExtractCandidate(text) == text[p + |JsonOpen|..j]
    ensures (forall p: nat, j: nat :: !RegexMatch(JsonOpen, text, p, j)) &&
            (exists p: nat, j: nat :: RegexMatch(PlainOpen, text, p, j)) ==>
      exists p: nat, j: nat :: LeftmostLazy(PlainOpen, text, p, j) && ExtractCandidate(text) == text[p + |PlainOpen|..j]
    ensures (forall p: nat, j: nat :: !RegexMatch(JsonOpen, text, p, j) && !RegexMatch(PlainOpen, text, p, j)) ==>
      ExtractCandidate(text) == text
  {
    FirstFenceIsLeftmostMatch(JsonOpen, text);
    FirstFenceIsLeftmostMatch(PlainOpen, text);
  }

  lemma JsonOpenUnbordered()
    ensures Unbordered(JsonOpen)
  {
    forall m: nat | 0 < m < |JsonOpen|
      ensures !IsBorder(JsonOpen, m)
    {
      assert JsonOpen[m..][|JsonOpen| - m - 1] == '\n';
      assert JsonOpen[..|JsonOpen| - m][|JsonOpen| - m - 1] != '\n';
    }
  }

  lemma CloseUnbordered()
    ensures Unbordered(Close)
  {
    forall m: nat | 0 < m < |Close|
      ensures !IsBorder(Close, m)
    {
      assert Close[m..][0] == '`';
      assert Close[..|Close| - m][0] == '\n';
    }
  }

  /**
   * A fence embedded in prose is recovered exactly: for
   * `text = p + open + s + "\n```" + q` where `p` holds no opening marker
   * and `s` holds no closing marker, the first fence is `s`.
   */
  lemma FirstFenceWrapped(open: string, p: string, s: string, q: string)
    requires Unbordered(open)
    requires !Contains(p, open)
    requires !Contains(s, Close)
    ensures FirstFence(open, p + open + s + Close + q) == Some(s)
  {
    InteriorSlice(p + open, s, Close, q);
    OpeningFound(open, p, s, q);
    ClosingFound(open, p, s, q);
  }

  lemma InteriorSlice(a: string, s: string, c: string, q: string)
    ensures (a + s + c + q)[|a|..|a| + |s|] == s
  {
    assert a + s + c + q == a + (s + (c + q));
  }

  lemma OpeningFound(open: string, p: string, s: string, q: string)
    requires Unbordered(open)
    requires !Contains(p, open)
    ensures FindFrom(open, p + open + s + Close + q, 0) == Some(|p|)
  {
    FirstOccurrenceAfter(open, "", p, s + Close + q);
    assert "" + p + open + (s + Close + q) == p + open + s + Close + q;
  }

  lemma ClosingFound(open: string, p: string, s: string, q: string)
    requires !Contains(s, Close)
    ensures FindFrom(Close, p + open + s + Close + q, |p| + |open|) == Some(|p| + |open| + |s|)
  {
    CloseUnbordered();
    FirstOccurrenceAfter(Close, p + open, s, q);
    assert (p + open) + s + Close + q == p + open + s + Close + q;
  }

  /**
   * A json fence embedded in prose is recovered exactly: for
   * `text = p + "```json\n" + s + "\n```" + q` where `p` holds no "```json\n"
   * and `s` holds no "\n```", the candidate is `s`.
   */
  lemma ExtractWrapped(p: string, s: string, q: string)
    requires !Contains(p, JsonOpen)
    requires !Contains(s, Close)
    ensures ExtractCandidate(p + JsonOpen + s + Close + q) == s
  {
    JsonOpenUnbordered();
    FirstFenceWrapped(JsonOpen, p, s, q);
  }

  /** A concrete instance: an earlier untagged fence does not win over a json-tagged one. */
  lemma JsonFencePreferred()
    ensures ExtractCandidate("```\nA\n```\n```json\nB\n```") == "B"
  {
    var pre := "```\nA\n```\n";
    assert "```\nA\n```\n```json\nB\n```" == pre + JsonOpen + "B" + Close + "";
    assert JsonOpen[3] == 'j';
    AbsentCharNoOccurrence(JsonOpen, pre, 3);
    ExtractWrapped(pre, "B", "");
  }
}

=== FILE: generation.dfy ===
/**
 * The requests sent to the generation backend. The backend itself is an oracle
 * (a function parameter of the handlers); what is modelled is the shape of what
 * is sent: a bare prompt string, or the prompt together with one inline image
 * part carrying the image data and its MIME type.
 */
module Generation {
  import opened Results
  import opened Strings
  import opened JsonValue

  /** An inline image part; `bytes` stands for the buffer whose base64 text is sent. */
  datatype InlineData = InlineData(bytes: string, mimeType: Json)

  datatype GenRequest =
    | TextPrompt(text: string)
    | Multimodal(prompt: string, image: InlineData)

  const DefaultMime := "image/jpeg"

  /** The MIME type sent with an image: the caller's when truthy, image/jpeg otherwise. */
  function MimeOrDefault(mimeType: Json): (r: Json)
    ensures Truthy(r)
    ensures Truthy(mimeType) ==> r == mimeType
    ensures !Truthy(mimeType) ==> r == JString(DefaultMime)
  {
    if Truthy(mimeType) then mimeType else JString(DefaultMime)
  }

  /**
   * The `content` of server.js `generateContent` and of the image branch of
   * vision_module.js `generate`: with an image buffer, the prompt plus an inline
   * image part whose MIME type falls back to image/jpeg; without one, the prompt.
   */
  function Content(prompt: string, image: Option<string>, mimeType: Json): (r: GenRequest)
    ensures r.Multimodal? <==> image.Some?
    ensures r.TextPrompt? ==> r.text == prompt
    ensures r.Multimodal? ==> r.prompt == prompt && r.image.bytes == image.value
    ensures r.Multimodal? ==> Truthy(r.image.mimeType) && (Truthy(mimeType) ==> r.image.mimeType == mimeType)
  {
    match image
    case Some(bytes) => Multimodal(prompt, InlineData(bytes, MimeOrDefault(mimeType)))
    case None => TextPrompt(prompt)
  }

  // ---------------------------------------------------------------------------
  // Prompt texts
  // ---------------------------------------------------------------------------

  const DocumentHeader := "\n\nDocument Text:\n"
  const IngredientInstruction :=
    "\n\nPlease extract the relevant information and structure it in the Ingredient Parsing format."
  const HealthInstruction :=
    "\n\nPlease extract the relevant information and structure it in the Universal Health Report format."

  /** Cuts the document text back out of a prompt built by `DocumentPrompt`. */
  function DocumentTextOf(prompt: string, instruction: string, full: string): Option<string> {
    var head := prompt + DocumentHeader;
    if |head| + |instruction| <= |full| && full[..|head|] == head && full[|full| - |instruction|..] == instruction
    then Some(full[|head|..|full| - |instruction|])
    else None
  }

  /**
   * The prompt that embeds a document: the caller's prompt, a "Document Text:"
   * header, the text itself and a closing instruction. The text can be cut back
   * out of it exactly.
   */
  function DocumentPrompt(prompt: string, documentText: string, instruction: string): (r: string)
    ensures DocumentTextOf(prompt, instruction, r) == Some(documentText)
  {
    var head := prompt + DocumentHeader;
    var full := head + documentText + instruction;
    assert full[..|head|] == head;
    assert full[|full| - |instruction|..] == instruction;
    assert full[|head|..|full| - |instruction|] == documentText;
    full
  }

  /** The separator /parse-text joins an ingredient array with. */
  const ListSeparator := ", "

  /**
   * The ingredient text of /parse-text: an array is joined with ", ", any other
   * value is rendered as a template literal renders it. None when rendering
   * throws, which happens for exactly the values whose own string conversion
   * throws.
   */
  function IngredientsText(ingredients: Json): (r: Option<string>)
    ensures r.None? <==> ConversionThrows(ingredients)
    ensures !ingredients.JArray? ==> r == ToJsString(ingredients)
  {
    match ingredients
    case JArray(xs) =>
      var parts := seq(|xs|, i requires 0 <= i < |xs| => ElementString(xs[i]));
      assert forall i :: 0 <= i < |xs| ==> (parts[i].None? <==> ConversionThrows(xs[i]));
      (match AllSome(parts)
       case Some(texts) => Some(Join(texts, ListSeparator))
       case None => None)
    case _ => ToJsString(ingredients)
  }

  lemma ListSeparatorUnbordered()
    ensures Unbordered(ListSeparator)
  {
    forall m: nat | 0 < m < |ListSeparator|
      ensures !IsBorder(ListSeparator, m)
    {
      assert ListSeparator[m..][0] == ' ';
    }
  }

  /**
   * A non-empty list of item names none of which contains ", " is sent as the
   * names joined by ", ", from which splitting on ", " recovers the list.
   */
  lemma IngredientListRoundTrip(names: seq<string>)
    requires |names| >= 1
    requires forall i :: 0 <= i < |names| ==> !Contains(names[i], ListSeparator)
    ensures var text := IngredientsText(JArray(seq(|names|, i requires 0 <= i < |names| => JString(names[i]))));
      text.Some? && Split(text.value, ListSeparator) == names
  {
    var xs := seq(|names|, i requires 0 <= i < |names| => JString(names[i]));
    var rendered := seq(|xs|, i requires 0 <= i < |xs| => ElementString(xs[i]));
    var texts := AllSome(rendered);
    assert texts.Some?;
    assert texts.value == names;
    ListSeparatorUnbordered();
    SplitJoin(names, ListSeparator);
  }

  /** The fixed recipe instruction of server.js. */
  const RecipePromptTemplate :=
    "\nYou are a master chef and nutritionist. \n"
    + "Based on the provided list of ingredients, suggest 3 healthy and delicious recipes.\n"
    + "For each recipe include:\n"
    + "- Recipe Name\n"
    + "- Ingredients (with quantities)\n"
    + "- Instructions (step-by-step)\n"
    + "- Nutritional Info (approximate calories, protein, etc.)\n"
    + "\n"
    + "Format the output as a JSON array of recipe objects.\n"

  /** What separates the recipe instruction from the ingredient text. */
  const RecipeHeader := "\n\nIngredients Available: "

  /** Cuts the ingredient text back out of a prompt built by `RecipePrompt`. */
  function RecipeIngredientsOf(full: string): Option<string> {
    var head := RecipePromptTemplate + RecipeHeader;
    if |head| <= |full| && full[..|head|] == head then Some(full[|head|..]) else None
  }

  /**
   * The recipe request: the fixed instruction and the "Ingredients Available:"
   * header, then the ingredient text, which closes the prompt and can be cut
   * back out of it.
   */
  function RecipePrompt(ingredientsText: string): (r: string)
    ensures |r| > |ingredientsText| && r[|r| - |ingredientsText|..] == ingredientsText
    ensures r[..|r| - |ingredientsText|] == RecipePromptTemplate + RecipeHeader
    ensures RecipeIngredientsOf(r) == Some(ingredientsText)
  {
    var head := RecipePromptTemplate + RecipeHeader;
    var full := head + ingredientsText;
    assert full[..|head|] == head;
    assert full[|head|..] == ingredientsText;
    full
  }

  /** Only recipe prompts carry ingredients: what is cut out rebuilds the prompt it came from. */
  lemma {:induction false} RecipeIngredientsOfInverse(full: string)
    ensures RecipeIngredientsOf(full).Some? ==> RecipePrompt(RecipeIngredientsOf(full).value) == full
  {
    var head := RecipePromptTemplate + RecipeHeader;
    if |head| <= |full| && full[..|head|] == head {
      assert full == full[..|head|] + full[|head|..];
    }
  }
}

=== FILE: http.dfy ===
/**
 * What a request handler produces: a response and the ordered list of
 * filesystem effects it performed, plus the oracles it consults.
 */
module Http {
  import opened Results
  import opened JsonValue
  import opened Strings
  import opened Generation

  datatype Body = Text(text: string) | JsonBody(value: Json)

  datatype Response = Response(status: nat, body: Body)

  /** A synchronous file write (creating or overwriting) and a file removal. */
  datatype Effect = WriteFile(name: string, contents: string) | Unlink(path: string)

  datatype Outcome = Outcome(response: Response, effects: seq<Effect>)

  /** A file multer stored for the request: where it is, its MIME type and what it holds. */
  datatype Upload = Upload(path: string, mimetype: string, contents: string)

  /**
   * The collaborators a handler calls and cannot see into: the generation
   * backend, `json5.parse`, `JSON.parse`, `JSON.stringify`, base64 decoding, and
   * the clock (`ts` for the millisecond time, `now` for its ISO rendering).
   * `stringify` stands for both serializations the code uses: the two-space
   * indented one that saved artifacts are written with and the compact one the
   * recipe endpoint applies to a scan it read back. The model does not tell the
   * two layouts apart.
   */
  datatype Env = Env(
    generate: GenRequest -> Result<string>,
    json5: string -> Result<Json>,
    jsonParse: string -> Result<Json>,
    stringify: Json -> string,
    toBuffer: Json -> Result<string>,
    ts: nat,
    now: string)

  const ParseErrorPrefix := "Error parsing generated report data: "
  const SavedMessage := "Report generated and saved"

  function TextResponse(status: nat, text: string): Response {
    Response(status, Text(text))
  }

  function ErrorJson(status: nat, message: string): Response {
    Response(status, JsonBody(JObject(map["error" := JString(message)])))
  }

  /** `{ message: "Report generated and saved", file, data }` */
  function SavedResponse(file: string, data: Json): Response {
    Response(200, JsonBody(JObject(map["message" := JString(SavedMessage), "file" := JString(file), "data" := data])))
  }

  /** A request body field is present and truthy, so the handler's missing-field check lets it through. */
  predicate FieldTruthy(body: map<string, Json>, key: string) {
    key in body && Truthy(body[key])
  }

  /** `data` of a `{ message, file, data }` response; `null` for any other response. */
  function ResponseData(response: Response): Json {
    if response.body.JsonBody? && response.body.value.JObject? && "data" in response.body.value.fields
    then response.body.value.fields["data"]
    else JNull
  }

  function ApplyEffect(files: map<string, string>, effect: Effect): map<string, string> {
    match effect
    case WriteFile(name, contents) => files[name := contents]
    case Unlink(path) => files - {path}
  }

  /** The files present after the effects run in order. */
  function ApplyEffects(files: map<string, string>, effects: seq<Effect>): map<string, string>
    decreases |effects|
  {
    if |effects| == 0 then files else ApplyEffects(ApplyEffect(files, effects[0]), effects[1..])
  }

  /** Writing a file and then removing another leaves the written file and removes the other. */
  lemma WriteThenUnlink(files: map<string, string>, name: string, contents: string, path: string)
    requires path != name
    ensures var after := ApplyEffects(files, [WriteFile(name, contents), Unlink(path)]);
      && name in after && after[name] == contents && path !in after
      && forall f :: f in files && f != name && f != path ==> f in after && after[f] == files[f]
  {
    var effects := [WriteFile(name, contents), Unlink(path)];
    var written := files[name := contents];
    assert effects[1..] == [Unlink(path)];
    assert effects[1..][1..] == [];
    assert ApplyEffects(written - {path}, []) == written - {path};
    assert ApplyEffects(written, [Unlink(path)]) == written - {path};
    assert ApplyEffects(files, effects) == written - {path};
  }

  /**
   * The `generate` helper of doc_gemini.js and vision_module.js: the backend's
   * text with surrounding whitespace cut off, or the backend's failure.
   */
  function GenerateTrimmed(env: Env, request: GenRequest): (r: Result<string>)
    ensures r.Err? <==> env.generate(request).Err?
    ensures r.Ok? ==> |r.value| == 0 || (!IsJsSpace(r.value[0]) && !IsJsSpace(r.value[|r.value| - 1]))
    ensures r.Ok? ==> var raw := env.generate(request).value;
      exists i, j :: 0 <= i <= j <= |raw| && r.value == raw[i..j] && AllSpace(raw[..i]) && AllSpace(raw[j..])
  {
    match env.generate(request)
    case Err(e) => Err(e)
    case Ok(raw) => TrimSpec(raw); Ok(Trim(raw))
  }
}

=== FILE: json.dfy ===
/**
 * The values a lenient JSON parser hands back, and the few JavaScript
 * operations the handlers apply to them: truthiness, property reads,
 * the `??` operator and `String(v)` (used by template literals and `join`).
 */
module JsonValue {
  import opened Results
  import opened Strings

  /** A parsed JSON value. Numbers are restricted to integers. */
  datatype Json =
    | JNull
    | JBool(b: bool)
    | JInt(i: int)
    | JString(s: string)
    | JArray(items: seq<Json>)
    | JObject(fields: map<string, Json>)

  const EmptyObject: Json := JObject(map[])
  const EmptyArray: Json := JArray([])

  /** JavaScript ToBoolean: `null`, `false`, `0` and `""` are the falsy values. */
  predicate Truthy(v: Json)
    ensures !Truthy(v) <==> v in {JNull, JBool(false), JInt(0), JString("")}
  {
    match v
    case JNull => false
    case JBool(b) => b
    case JInt(i) => i != 0
    case JString(s) => s != ""
    case JArray(_) => true
    case JObject(_) => true
  }

  /**
   * `v.key` for a value that is not null: an own key of an object, otherwise
   * `undefined` (None). The handlers never read an inherited key by name; the
   * one inherited key string conversion consults, `toString`, is the concern of
   * `ConversionThrows`.
   */
  function Property(v: Json, key: string): (r: Option<Json>)
    requires !v.JNull?
    ensures r.Some? <==> v.JObject? && key in v.fields
    ensures r.Some? ==> r.value == v.fields[key]
  {
    if v.JObject? && key in v.fields then Some(v.fields[key]) else None
  }

  /** The message of the TypeError thrown by `null.key`. */
  function NullReadMessage(key: string): string {
    "Cannot read properties of null (reading '" + key + "')"
  }

  /** `a ?? fallback`: the fallback replaces `undefined` and `null` only. */
  function Coalesce(a: Option<Json>, fallback: Json): (r: Json)
    ensures a.Some? && !a.value.JNull? ==> r == a.value
    ensures a.None? || a.value.JNull? ==> r == fallback
  {
    match a
    case Some(v) => if v.JNull? then fallback else v
    case None => fallback
  }

  function IntToString(i: int): string {
    if i < 0 then "-" + Decimal(-i) else Decimal(i)
  }

  /** The key whose presence makes an object unconvertible to a string. */
  const ToStringKey := "toString"

  /**
   * Whether `String(v)` throws a TypeError. A parsed object can carry an own
   * `toString` key but never a callable one, so converting it finds neither a
   * usable `toString` nor a primitive `valueOf`. An array converts each of its
   * non-null elements, so such an object anywhere among them throws too; an
   * object nested in an object is never converted.
   */
  predicate ConversionThrows(v: Json) {
    match v
    case JObject(fields) => ToStringKey in fields
    case JArray(xs) => exists k :: 0 <= k < |xs| && ConversionThrows(xs[k])
    case _ => false
  }

  /**
   * `String(v)`, as a template literal `${v}` renders it; None when the
   * conversion throws. An array is its elements joined with ",", `null`
   * elements rendered empty.
   */
  function ToJsString(v: Json): (r: Option<string>)
    ensures r.None? <==> ConversionThrows(v)
    ensures v.JString? ==> r == Some(v.s)
    ensures v.JInt? && v.i >= 0 ==> r == Some(Decimal(v.i))
    ensures v.JArray? && |v.items| == 0 ==> r == Some("")
    ensures v.JArray? && |v.items| == 1 && !v.items[0].JNull? ==> r == ToJsString(v.items[0])
    ensures v.JObject? && ToStringKey !in v.fields ==> r == Some("[object Object]")
  {
    match v
    case JNull => Some("null")
    case JBool(b) => Some(if b then "true" else "false")
    case JInt(i) => Some(IntToString(i))
    case JString(s) => Some(s)
    case JArray(xs) =>
      var parts := seq(|xs|, k requires 0 <= k < |xs| => if xs[k].JNull? then Some("") else ToJsString(xs[k]));
      assert forall k :: 0 <= k < |xs| ==> (parts[k].None? <==> ConversionThrows(xs[k]));
      (match AllSome(parts)
       case Some(texts) => Some(Join(texts, ","))
       case None => None)
    case JObject(fields) => if ToStringKey in fields then None else Some("[object Object]")
  }

  /** How `Array.prototype.join` renders one element: `null` becomes the empty string. */
  function ElementString(v: Json): (r: Option<string>)
    ensures r.None? <==> ConversionThrows(v)
    ensures v.JString? ==> r == Some(v.s)
    ensures v.JNull? ==> r == Some("")
  {
    if v.JNull? then Some("") else ToJsString(v)
  }
}

=== FILE: pipeline.dfy ===
/**
 * How the handlers connect through the filesystem: an ingredient scan saved in
 * the directory /api/recipe/generate lists is the scan it reads next, as long
 * as it is the only one there. The parsers of server.js save into that
 * directory; those of vision_module.js save into their own working directory,
 * which is the same one only when that app runs from server.js's directory.
 */
module Pipeline {
  import opened Results
  import opened JsonValue
  import opened Records
  import opened Artifacts
  import opened Http
  import Server = ServerHandlers
  import Vision = VisionHandlers

  /**
   * A successful ingredient-parse outcome: a 200 answer whose `data` is a
   * normalized record, written to `IngredienetList_<ts>.json`, possibly
   * followed by the removal of an upload stored under another name.
   */
  predicate SavedScan(o: Outcome, env: Env) {
    var name := ArtifactName(IngredientPrefix, env.ts);
    var data := ResponseData(o.response);
    && o.response.status == 200
    && data.JObject? && data.fields.Keys == IngredientFields
    && |o.effects| >= 1 && o.effects[0] == WriteFile(name, env.stringify(data))
    && (|o.effects| == 1 || (|o.effects| == 2 && o.effects[1].Unlink? && o.effects[1].path != name))
  }

  /** Every parser of the model that answers 200 has saved a scan. */
  lemma ParsersSaveScans(body: map<string, Json>, file: Option<Upload>, prompt: string, env: Env)
    ensures Server.ParseImage(body, prompt, env).response.status == 200 ==> SavedScan(Server.ParseImage(body, prompt, env), env)
    ensures Server.ParseText(body, prompt, env).response.status == 200 ==> SavedScan(Server.ParseText(body, prompt, env), env)
    ensures Vision.ParseImage(body, prompt, env).response.status == 200 ==> SavedScan(Vision.ParseImage(body, prompt, env), env)
    ensures Vision.ParseText(body, prompt, env).response.status == 200 ==> SavedScan(Vision.ParseText(body, prompt, env), env)
    ensures file.Some? && file.value.path != ArtifactName(IngredientPrefix, env.ts) &&
            Vision.ParseUploadedImage(file, prompt, env).response.status == 200 ==>
              SavedScan(Vision.ParseUploadedImage(file, prompt, env), env)
  {
  }

  /** The files after a saved scan: the scan under its name, nothing new besides. */
  lemma SavedScanFiles(files: map<string, string>, o: Outcome, env: Env)
    requires SavedScan(o, env)
    ensures var after := ApplyEffects(files, o.effects);
      var name := ArtifactName(IngredientPrefix, env.ts);
      && name in after && after[name] == env.stringify(ResponseData(o.response))
      && forall f :: f in after && f != name ==> f in files
  {
    var name := ArtifactName(IngredientPrefix, env.ts);
    var written := files[name := env.stringify(ResponseData(o.response))];
    assert ApplyEffects(files, o.effects) == ApplyEffects(written, o.effects[1..]);
    if |o.effects| == 2 {
      WriteThenUnlink(files, name, env.stringify(ResponseData(o.response)), o.effects[1].path);
      assert o.effects == [WriteFile(name, env.stringify(ResponseData(o.response))), Unlink(o.effects[1].path)];
    } else {
      assert o.effects[1..] == [];
    }
  }

  /** In a directory without scans, a single new scan is the latest one. */
  lemma OnlyScanIsLatest(files: map<string, string>, name: string, after: map<string, string>)
    requires forall f :: f in files ==> !IsIngredientArtifact(f)
    requires IsIngredientArtifact(name) && name in after
    requires forall f :: f in after && f != name ==> f in files
    ensures Latest(after.Keys) == Some(name)
  {
    assert name in after.Keys;
  }

  /**
   * Scan, then ask for recipes from the latest scan: starting from a directory
   * without scans, the recipe request uses the saved record's `item_name`
   * (serialized), or the whole record when that name is falsy, provided
   * `JSON.parse` reads back what `JSON.stringify` wrote.
   */
  lemma SavedScanFeedsRecipe(files: map<string, string>, o: Outcome, env: Env, body: map<string, Json>, later: Env)
    requires forall f :: f in files ==> !IsIngredientArtifact(f)
    requires SavedScan(o, env)
    requires FieldTruthy(body, "existingFile")
    requires forall v: Json :: later.jsonParse(env.stringify(v)) == Ok(v)
    ensures var data := ResponseData(o.response);
      var name := data.fields[ItemName];
      Server.RecipeSource(body, ApplyEffects(files, o.effects), later)
        == Server.FromText(if Truthy(name) then later.stringify(name) else later.stringify(data))
  {
    var after := ApplyEffects(files, o.effects);
    var name := ArtifactName(IngredientPrefix, env.ts);
    SavedScanFiles(files, o, env);
    ArtifactNamesAndFilter(env.ts);
    OnlyScanIsLatest(files, name, after);
    assert later.jsonParse(after[name]) == Ok(ResponseData(o.response));
  }
}

=== FILE: records.dfy ===
/**
 * The normalizers that turn a parsed payload into a stored record:
 * `UniversalIngredient` (identical in server.js and vision_module.js),
 * the merge-and-stamp `UniversalHealthReport` of server.js and the
 * field-defaulting `UniversalHealthReport` of doc_gemini.js.
 * A record is an object: a map from field name to value.
 */
module Records {
  import opened Results
  import opened Strings
  import opened JsonValue

  type Record = map<string, Json>

  const ItemName := "item_name"
  const LastUpdated := "last_updated"

  const IngredientFields: set<string> :=
    {"item_name", "category", "specific_type", "confidence", "label_text_detected"}

  /** Fields of the doc_gemini.js report that default to an empty array. */
  const ListFields: set<string> := {"symptoms", "medications_current", "lab_results"}

  /** Fields of the doc_gemini.js report that default to an empty object. */
  const ObjectFields: set<string> :=
    {"source_metadata", "patient_profile", "encounter_info", "diagnoses", "allergies",
     "findings", "lifestyle_and_risk", "recommendations", "system_generated"}

  /** The payload holds a value other than null under `key`. */
  predicate Present(data: Json, key: string) {
    data.JObject? && key in data.fields && !data.fields[key].JNull?
  }

  // ---------------------------------------------------------------------------
  // UniversalIngredient
  // ---------------------------------------------------------------------------

  /**
   * `new UniversalIngredient(data)`: exactly the five ingredient fields, each the
   * payload's value unless that is missing or null, in which case `{}`. A null
   * payload throws (the `= {}` default only replaces `undefined`).
   */
  function UniversalIngredient(data: Json): (r: Result<Record>)
    ensures r.Err? <==> data.JNull?
    ensures r.Err? ==> r.error == NullReadMessage(ItemName)
    ensures r.Ok? ==> r.value.Keys == IngredientFields
    ensures r.Ok? ==> forall k :: k in IngredientFields && Present(data, k) ==> r.value[k] == data.fields[k]
    ensures r.Ok? ==> forall k :: k in IngredientFields && !Present(data, k) ==> r.value[k] == EmptyObject
  {
    if data.JNull? then Err(NullReadMessage(ItemName))
    else Ok(map k | k in IngredientFields :: Coalesce(Property(data, k), EmptyObject))
  }

  /** Normalizing a normalized ingredient record changes nothing. */
  lemma IngredientIdempotent(data: Json)
    requires !data.JNull?
    ensures UniversalIngredient(JObject(UniversalIngredient(data).value)) == UniversalIngredient(data)
  {
    var r := UniversalIngredient(data).value;
    var r2 := UniversalIngredient(JObject(r)).value;
    assert r2.Keys == r.Keys;
    forall k | k in r
      ensures r2[k] == r[k]
    {
      assert !r[k].JNull?;
    }
    assert r2 == r;
  }

  /**
   * In a normalized ingredient record `item_name` is falsy only when the payload
   * itself held `false`, `0` or `""`: the `{}` default is truthy.
   */
  lemma IngredientNameFalsyOnlyIfPayloadFalsy(data: Json)
    requires !data.JNull?
    ensures var name := UniversalIngredient(data).value[ItemName];
      !Truthy(name) ==> Present(data, ItemName) && name == data.fields[ItemName] &&
                        (name == JBool(false) || name == JInt(0) || name == JString(""))
  {
  }

  // ---------------------------------------------------------------------------
  // server.js UniversalHealthReport: Object.assign, then stamp
  // ---------------------------------------------------------------------------

  /**
   * The own enumerable properties `Object.assign` reads from a source value:
   * an object's entries, an array's or string's indexed elements under their
   * decimal index, nothing from null, booleans or numbers. What becomes of
   * each entry on the target is `MergeAndStamp`'s concern.
   */
  function OwnEnumerable(data: Json): (r: Record)
    ensures data.JObject? ==> r == data.fields
    ensures data.JArray? ==> forall i: nat :: i < |data.items| ==> Decimal(i) in r && r[Decimal(i)] == data.items[i]
    ensures data.JString? ==> forall i: nat :: i < |data.s| ==> Decimal(i) in r && r[Decimal(i)] == JString([data.s[i]])
    ensures data.JNull? || data.JBool? || data.JInt? ==> r == map[]
  {
    match data
    case JObject(m) => m
    case JArray(xs) => IndexMap(seq(|xs|, i requires 0 <= i < |xs| => xs[i]))
    case JString(s) => IndexMap(seq(|s|, i requires 0 <= i < |s| => JString([s[i]])))
    case _ => map[]
  }

  /** The entries `"0" := xs[0]`, `"1" := xs[1]`, ... */
  function IndexMap(xs: seq<Json>): (r: Record)
    ensures forall i: nat :: i < |xs| ==> Decimal(i) in r && r[Decimal(i)] == xs[i]
    ensures forall k :: k in r ==> AllDigits(k) && DecimalValue(k) < |xs| && k == Decimal(DecimalValue(k))
  {
    IndexMapFrom(xs, 0)
  }

  function IndexMapFrom(xs: seq<Json>, from: nat): (r: Record)
    requires from <= |xs|
    ensures forall i: nat :: from <= i < |xs| ==> Decimal(i) in r && r[Decimal(i)] == xs[i]
    ensures forall k :: k in r ==> AllDigits(k) && from <= DecimalValue(k) < |xs| && k == Decimal(DecimalValue(k))
    decreases |xs| - from
  {
    if from == |xs| then map[]
    else
      DecimalRoundTrip(from);
      IndexMapFrom(xs, from + 1)[Decimal(from) := xs[from]]
  }

  /**
   * The one key an ordinary property assignment does not store: assigning to
   * `__proto__` replaces the target's prototype (or does nothing, for a
   * primitive value), so no own property of that name appears.
   */
  const ProtoKey := "__proto__"

  /**
   * `new UniversalHealthReport(data)` of server.js: the payload's own properties
   * with `last_updated` overwritten by the current time. `Object.assign` stores
   * each entry by assignment, so a `__proto__` entry of the payload never
   * becomes a property of the report and is never serialized.
   */
  function MergeAndStamp(data: Json, now: string): (r: Record)
    ensures r.Keys == (OwnEnumerable(data).Keys - {ProtoKey}) + {LastUpdated}
    ensures ProtoKey !in r
    ensures r[LastUpdated] == JString(now)
    ensures forall k :: k in r && k != LastUpdated ==> r[k] == OwnEnumerable(data)[k]
  {
    (OwnEnumerable(data) - {ProtoKey})[LastUpdated := JString(now)]
  }

  /**
   * For an object payload the report is that object without a `__proto__`
   * entry and with `last_updated := now`: no other key is added or dropped, and
   * no other value changes. A null payload gives a report holding only
   * `last_updated`.
   */
  lemma MergeAndStampObject(data: Json, now: string)
    ensures data.JObject? ==> MergeAndStamp(data, now) == (data.fields - {ProtoKey})[LastUpdated := JString(now)]
    ensures data.JNull? ==> MergeAndStamp(data, now) == map[LastUpdated := JString(now)]
  {
  }

  /** A payload `{"__proto__": {}, "a": 1}` is saved as `{"a": 1, "last_updated": now}`. */
  lemma MergeAndStampDropsProto(now: string)
    ensures MergeAndStamp(JObject(map[ProtoKey := EmptyObject, "a" := JInt(1)]), now)
            == map["a" := JInt(1), LastUpdated := JString(now)]
  {
    var m := map[ProtoKey := EmptyObject, "a" := JInt(1)];
    assert m - {ProtoKey} == map["a" := JInt(1)];
  }

  /**
   * Normalizing a saved server.js report again at a later time is the same as
   * normalizing the original payload at that time: only the stamp moves.
   */
  lemma MergeAndStampRestamp(data: Json, now: string, later: string)
    ensures MergeAndStamp(JObject(MergeAndStamp(data, now)), later) == MergeAndStamp(data, later)
  {
  }

  // ---------------------------------------------------------------------------
  // doc_gemini.js UniversalHealthReport: twelve defaulted fields
  // ---------------------------------------------------------------------------

  const HealthFields: set<string> := ListFields + ObjectFields + {LastUpdated}

  /** What a missing or null field of the doc_gemini.js report becomes. */
  function FieldDefault(key: string, now: string): (r: Json)
    ensures key in ListFields ==> r == EmptyArray
    ensures key in ObjectFields ==> r == EmptyObject
    ensures key == LastUpdated ==> r == JString(now)
  {
    if key == LastUpdated then JString(now) else if key in ListFields then EmptyArray else EmptyObject
  }

  /**
   * `new UniversalHealthReport(data)` of doc_gemini.js: exactly the thirteen declared
   * fields; the three list fields default to `[]`, the nine others to `{}`, and
   * `last_updated` to the current time, each only when the payload's value is
   * missing or null. A null payload throws.
   */
  function DocHealthReport(data: Json, now: string): (r: Result<Record>)
    ensures r.Err? <==> data.JNull?
    ensures r.Ok? ==> r.value.Keys == HealthFields
    ensures r.Ok? ==> forall k :: k in HealthFields && Present(data, k) ==> r.value[k] == data.fields[k]
    ensures r.Ok? ==> forall k :: k in ListFields && !Present(data, k) ==> r.value[k] == JArray([])
    ensures r.Ok? ==> forall k :: k in ObjectFields && !Present(data, k) ==> r.value[k] == JObject(map[])
    ensures r.Ok? && !Present(data, LastUpdated) ==> r.value[LastUpdated] == JString(now)
  {
    if data.JNull? then Err(NullReadMessage("source_metadata"))
    else Ok(map k | k in HealthFields :: Coalesce(Property(data, k), FieldDefault(k, now)))
  }

  /** `last_updated` is kept when the payload carries it and is the current time otherwise. */
  lemma DocHealthLastUpdated(data: Json, now: string)
    requires !data.JNull?
    ensures Present(data, LastUpdated) ==> DocHealthReport(data, now).value[LastUpdated] == data.fields[LastUpdated]
    ensures !Present(data, LastUpdated) ==> DocHealthReport(data, now).value[LastUpdated] == JString(now)
  {
    assert LastUpdated in HealthFields;
  }

  /**
   * Normalizing a normalized report again, at any later time, changes nothing:
   * every field, `last_updated` included, is already set and not null.
   */
  lemma DocHealthIdempotent(data: Json, now: string, later: string)
    requires !data.JNull?
    ensures DocHealthReport(JObject(DocHealthReport(data, now).value), later) == DocHealthReport(data, now)
  {
    var r := DocHealthReport(data, now).value;
    var r2 := DocHealthReport(JObject(r), later).value;
    forall k | k in r
      ensures r2[k] == r[k]
    {
      DocHealthFieldKept(data, now, later, k);
    }
    assert r2 == r;
  }

  /** Normalizing a report again keeps each of its fields. */
  lemma DocHealthFieldKept(data: Json, now: string, later: string, k: string)
    requires !data.JNull? && k in HealthFields
    ensures DocHealthReport(JObject(DocHealthReport(data, now).value), later).value[k]
      == DocHealthReport(data, now).value[k]
  {
    DocHealthFieldSet(data, now, k);
  }

  /** Every field of a doc_gemini.js report is set: none is null. */
  lemma DocHealthFieldSet(data: Json, now: string, k: string)
    requires !data.JNull? && k in HealthFields
    ensures !DocHealthReport(data, now).value[k].JNull?
  {
    assert !FieldDefault(k, now).JNull?;
  }

  /**
   * The two `UniversalHealthReport` classes disagree on a payload that already carries
   * `last_updated`: server.js overwrites it with the current time, doc_gemini.js keeps it.
   */
  lemma HealthReportsDisagreeOnLastUpdated(data: Json, now: string)
    requires Present(data, LastUpdated) && data.fields[LastUpdated] != JString(now)
    ensures MergeAndStamp(data, now)[LastUpdated] == JString(now)
    ensures DocHealthReport(data, now).value[LastUpdated] == data.fields[LastUpdated]
    ensures MergeAndStamp(data, now)[LastUpdated] != DocHealthReport(data, now).value[LastUpdated]
  {
  }
}

=== FILE: results.dfy ===
/** Failure-carrying values shared by every module of the model. */
module Results {

  /** A value that may be missing (JavaScript `undefined` for a property read). */
  datatype Option<+T> = None | Some(value: T)

  /** The outcome of a step that may throw; `error` carries the exception message. */
  datatype Result<+T> = Ok(value: T) | Err(error: string)

  /**
   * The values of a sequence of steps that may each fail: all of them when
   * every step succeeded, None as soon as one did not.
   */
  function AllSome<T>(parts: seq<Option<T>>): (r: Option<seq<T>>)
    ensures r.Some? <==> forall k :: 0 <= k < |parts| ==> parts[k].Some?
    ensures r.Some? ==> |r.value| == |parts| && forall k :: 0 <= k < |parts| ==> parts[k] == Some(r.value[k])
  {
    if |parts| == 0 then Some([])
    else
      match (parts[0], AllSome(parts[1..]))
      case (Some(first), Some(rest)) => Some([first] + rest)
      case _ => None
  }
}

=== FILE: server.dfy ===
/**
 * The request handlers of server.js: the two ingredient parsers, the document
 * parser and the recipe generator. A handler takes the parsed request body (or
 * the stored upload), the prompt read at start-up and the oracles, and yields
 * the response together with the filesystem effects it performed.
 */
module ServerHandlers {
  import opened Results
  import opened Strings
  import opened JsonValue
  import opened Records
  import opened Fence
  import opened Artifacts
  import opened Generation
  import opened Http

  const ImageFieldsMissing := "Image and mimeType required"
  const ImageError := "Error processing image"
  const IngredientsMissing := "Ingredients list required"
  const TextError := "Error processing text"
  const NoFileUploaded := "No file uploaded"
  const DocumentError := "Error processing document"
  const NoScansFound := "No ingredient scans found."
  const NoIngredientsProvided := "No ingredients provided."
  const RecipeError := "Error generating recipes"

  /** Fence extraction followed by `json5.parse`. */
  function ParseGenerated(text: string, env: Env): Result<Json> {
    env.json5(ExtractCandidate(text))
  }

  /**
   * The parser sees exactly the payload of a json fence, whatever prose
   * surrounds it, when the prose before it opens no json fence and the payload
   * holds no closing marker.
   */
  lemma ParseGeneratedFenced(p: string, s: string, q: string, env: Env)
    requires !Contains(p, JsonOpen)
    requires !Contains(s, Close)
    ensures ParseGenerated(p + JsonOpen + s + Close + q, env) == env.json5(s)
  {
    ExtractWrapped(p, s, q);
  }

  // ---------------------------------------------------------------------------
  // processIngredientResponse
  // ---------------------------------------------------------------------------

  /**
   * Parse the generated text, normalize it to an ingredient record, save it as
   * `IngredienetList_<ts>.json` and answer with it. Any failure (a parse error,
   * or the TypeError a `null` payload raises) answers 500 with the error's
   * message and writes nothing.
   */
  function ProcessIngredientResponse(text: string, env: Env): (r: Outcome)
    ensures r.response.status == 200 || r.response.status == 500
    ensures r.response.status == 200 <==> ParseGenerated(text, env).Ok? && !ParseGenerated(text, env).value.JNull?
    ensures r.response.status == 200 ==>
      var name := ArtifactName(IngredientPrefix, env.ts);
      var saved := JObject(UniversalIngredient(ParseGenerated(text, env).value).value);
      r.response == SavedResponse(name, saved) && r.effects == [WriteFile(name, env.stringify(saved))]
    ensures r.response.status == 500 ==>
      r.effects == [] && r.response.body.Text? && StartsWith(r.response.body.text, ParseErrorPrefix)
    ensures ParseGenerated(text, env).Err? ==>
      r.response == TextResponse(500, ParseErrorPrefix + ParseGenerated(text, env).error)
    ensures ParseGenerated(text, env) == Ok(JNull) ==>
      r.response == TextResponse(500, ParseErrorPrefix + NullReadMessage(ItemName))
  {
    match ParseGenerated(text, env)
    case Err(message) => Outcome(TextResponse(500, ParseErrorPrefix + message), [])
    case Ok(payload) =>
      match UniversalIngredient(payload)
      case Err(message) => Outcome(TextResponse(500, ParseErrorPrefix + message), [])
      case Ok(record) =>
        var name := ArtifactName(IngredientPrefix, env.ts);
        Outcome(SavedResponse(name, JObject(record)), [WriteFile(name, env.stringify(JObject(record)))])
  }

  /** The record a successful ingredient response carries is what the saved file holds. */
  lemma SavedIngredientIsResponseData(text: string, env: Env)
    requires ProcessIngredientResponse(text, env).response.status == 200
    ensures var o := ProcessIngredientResponse(text, env);
      var data := ResponseData(o.response);
      && o.response == SavedResponse(ArtifactName(IngredientPrefix, env.ts), data)
      && o.effects == [WriteFile(ArtifactName(IngredientPrefix, env.ts), env.stringify(data))]
      && data.JObject? && data.fields.Keys == IngredientFields
  {
  }

  // ---------------------------------------------------------------------------
  // POST /api/vision/parse-image and /api/vision/parse-text
  // ---------------------------------------------------------------------------

  /**
   * POST /api/vision/parse-image: both `image` and `mimeType` must be truthy;
   * the base64 image is decoded and sent with the vision prompt, and the answer
   * goes through `ProcessIngredientResponse`. A failed decode or generation
   * answers 500 "Error processing image".
   */
  function ParseImage(body: map<string, Json>, visionPrompt: string, env: Env): (r: Outcome)
    ensures r.response.status == 400 <==> !FieldTruthy(body, "image") || !FieldTruthy(body, "mimeType")
    ensures r.response.status == 400 ==> r.response == TextResponse(400, ImageFieldsMissing)
    ensures r.response.status in {200, 400, 500}
    ensures r.response.status != 200 ==> r.effects == []
    ensures r.response.status == 200 ==>
      var data := ResponseData(r.response);
      && r.response == SavedResponse(ArtifactName(IngredientPrefix, env.ts), data)
      && r.effects == [WriteFile(ArtifactName(IngredientPrefix, env.ts), env.stringify(data))]
      && data.JObject? && data.fields.Keys == IngredientFields
    ensures FieldTruthy(body, "image") && FieldTruthy(body, "mimeType") ==>
      && (env.toBuffer(body["image"]).Err? ==> r == Outcome(TextResponse(500, ImageError), []))
      && (env.toBuffer(body["image"]).Ok? ==>
            var generated := env.generate(Content(visionPrompt, Some(env.toBuffer(body["image"]).value), body["mimeType"]));
            && (generated.Err? ==> r == Outcome(TextResponse(500, ImageError), []))
            && (generated.Ok? ==> r == ProcessIngredientResponse(generated.value, env)))
  {
    if !FieldTruthy(body, "image") || !FieldTruthy(body, "mimeType") then
      Outcome(TextResponse(400, ImageFieldsMissing), [])
    else
      match env.toBuffer(body["image"])
      case Err(_) => Outcome(TextResponse(500, ImageError), [])
      case Ok(bytes) =>
        match env.generate(Content(visionPrompt, Some(bytes), body["mimeType"]))
        case Err(_) => Outcome(TextResponse(500, ImageError), [])
        case Ok(text) => ProcessIngredientResponse(text, env)
  }

  /**
   * What /api/vision/parse-image sends: the vision prompt and the decoded image,
   * labelled with the client's MIME type (which is truthy, so no default applies).
   */
  lemma ParseImageRequest(body: map<string, Json>, visionPrompt: string, env: Env, bytes: string)
    requires FieldTruthy(body, "image") && FieldTruthy(body, "mimeType")
    requires env.toBuffer(body["image"]) == Ok(bytes)
    ensures Content(visionPrompt, Some(bytes), body["mimeType"])
            == Multimodal(visionPrompt, InlineData(bytes, body["mimeType"]))
  {
  }

  /**
   * The prompt /api/vision/parse-text sends for the given `ingredients` value;
   * None when rendering the value throws, in the join or in the template.
   */
  function ParseTextPrompt(visionPrompt: string, ingredients: Json): (r: Option<string>)
    ensures r.None? <==> ConversionThrows(ingredients)
    ensures r.Some? ==> DocumentTextOf(visionPrompt, IngredientInstruction, r.value) == IngredientsText(ingredients)
  {
    match IngredientsText(ingredients)
    case None => None
    case Some(text) => Some(DocumentPrompt(visionPrompt, text, IngredientInstruction))
  }

  /**
   * POST /api/vision/parse-text: `ingredients` must be truthy; an array is
   * joined with ", ", anything else is rendered as text, and the prompt built
   * from it is sent without an image. A value whose rendering throws answers
   * 500 before anything is sent.
   */
  function ParseText(body: map<string, Json>, visionPrompt: string, env: Env): (r: Outcome)
    ensures r.response.status == 400 <==> !FieldTruthy(body, "ingredients")
    ensures r.response.status == 400 ==> r.response == TextResponse(400, IngredientsMissing)
    ensures r.response.status in {200, 400, 500}
    ensures r.response.status != 200 ==> r.effects == []
    ensures r.response.status == 200 ==>
      var data := ResponseData(r.response);
      && r.response == SavedResponse(ArtifactName(IngredientPrefix, env.ts), data)
      && r.effects == [WriteFile(ArtifactName(IngredientPrefix, env.ts), env.stringify(data))]
      && data.JObject? && data.fields.Keys == IngredientFields
    ensures FieldTruthy(body, "ingredients") && ConversionThrows(body["ingredients"]) ==>
      r == Outcome(TextResponse(500, TextError), [])
    ensures FieldTruthy(body, "ingredients") && !ConversionThrows(body["ingredients"]) ==>
      var generated := env.generate(TextPrompt(ParseTextPrompt(visionPrompt, body["ingredients"]).value));
      && (generated.Err? ==> r == Outcome(TextResponse(500, TextError), []))
      && (generated.Ok? ==> r == ProcessIngredientResponse(generated.value, env))
  {
    if !FieldTruthy(body, "ingredients") then
      Outcome(TextResponse(400, IngredientsMissing), [])
    else
      match ParseTextPrompt(visionPrompt, body["ingredients"])
      case None => Outcome(TextResponse(500, TextError), [])
      case Some(prompt) =>
        match env.generate(TextPrompt(prompt))
        case Err(_) => Outcome(TextResponse(500, TextError), [])
        case Ok(text) => ProcessIngredientResponse(text, env)
  }

  // ---------------------------------------------------------------------------
  // POST /api/doc/parse
  // ---------------------------------------------------------------------------

  /**
   * The request for an uploaded document: an `image/...` upload is sent as an
   * image after the prompt and the closing instruction; anything else is read
   * as text and embedded in the prompt.
   */
  function DocRequest(u: Upload, docPrompt: string): (r: GenRequest)
    ensures r.Multimodal? <==> StartsWith(u.mimetype, "image/")
    ensures r.Multimodal? ==> r == Multimodal(docPrompt + HealthInstruction, InlineData(u.contents, JString(u.mimetype)))
    ensures r.TextPrompt? ==> DocumentTextOf(docPrompt, HealthInstruction, r.text) == Some(u.contents)
  {
    if StartsWith(u.mimetype, "image/") then
      Content(docPrompt + HealthInstruction, Some(u.contents), JString(u.mimetype))
    else
      TextPrompt(DocumentPrompt(docPrompt, u.contents, HealthInstruction))
  }

  /**
   * POST /api/doc/parse: the upload is removed as soon as generation succeeds,
   * before the answer is parsed; the merged and stamped report is saved as
   * `health_report_<ts>.json`. Every failure after the 400 answers 500
   * "Error processing document".
   */
  function DocParse(file: Option<Upload>, docPrompt: string, env: Env): (r: Outcome)
    ensures file.None? ==> r == Outcome(TextResponse(400, NoFileUploaded), [])
    ensures r.response.status in {200, 400, 500}
    ensures r.response.status == 500 ==> r.response == TextResponse(500, DocumentError)
    ensures file.Some? ==>
      var generated := env.generate(DocRequest(file.value, docPrompt));
      && (generated.Err? ==> r.effects == [])
      && (generated.Ok? ==> |r.effects| >= 1 && r.effects[0] == Unlink(file.value.path))
      && (r.response.status == 200 <==> generated.Ok? && ParseGenerated(generated.value, env).Ok?)
    ensures r.response.status == 200 ==>
      var name := ArtifactName(HealthPrefix, env.ts);
      var report := JObject(MergeAndStamp(ParseGenerated(env.generate(DocRequest(file.value, docPrompt)).value, env).value, env.now));
      r.response == SavedResponse(name, report) && r.effects == [Unlink(file.value.path), WriteFile(name, env.stringify(report))]
  {
    match file
    case None => Outcome(TextResponse(400, NoFileUploaded), [])
    case Some(u) =>
      match env.generate(DocRequest(u, docPrompt))
      case Err(_) => Outcome(TextResponse(500, DocumentError), [])
      case Ok(text) =>
        match ParseGenerated(text, env)
        case Err(_) => Outcome(TextResponse(500, DocumentError), [Unlink(u.path)])
        case Ok(payload) =>
          var name := ArtifactName(HealthPrefix, env.ts);
          var report := JObject(MergeAndStamp(payload, env.now));
          Outcome(SavedResponse(name, report), [Unlink(u.path), WriteFile(name, env.stringify(report))])
  }

  /**
   * A saved server.js health report always carries the request's time, and a
   * `null` payload is not an error: the report is then `{ last_updated }` alone.
   */
  lemma DocParseStampsReport(u: Upload, docPrompt: string, env: Env)
    requires DocParse(Some(u), docPrompt, env).response.status == 200
    ensures var data := ResponseData(DocParse(Some(u), docPrompt, env).response);
      data.JObject? && LastUpdated in data.fields && data.fields[LastUpdated] == JString(env.now)
    ensures var text := env.generate(DocRequest(u, docPrompt)).value;
      ParseGenerated(text, env) == Ok(JNull) ==>
        ResponseData(DocParse(Some(u), docPrompt, env).response) == JObject(map[LastUpdated := JString(env.now)])
  {
  }

  /** Whatever happens after a successful generation, the upload is gone afterwards. */
  lemma DocParseRemovesUpload(files: map<string, string>, u: Upload, docPrompt: string, env: Env)
    requires env.generate(DocRequest(u, docPrompt)).Ok?
    requires u.path != ArtifactName(HealthPrefix, env.ts)
    ensures u.path !in ApplyEffects(files, DocParse(Some(u), docPrompt, env).effects)
  {
    var effects := DocParse(Some(u), docPrompt, env).effects;
    var after1 := files - {u.path};
    assert ApplyEffects(files, effects) == ApplyEffects(after1, effects[1..]);
    if |effects| == 2 {
      assert effects[1..][1..] == [];
    }
  }

  // ---------------------------------------------------------------------------
  // POST /api/recipe/generate
  // ---------------------------------------------------------------------------

  /** Where the recipe's ingredient text comes from, or why there is none. */
  datatype IngredientSource =
    | FromText(text: string)
    | NoScans
    | NoIngredients
    | Unreadable
    | Unconvertible

  /**
   * The ingredient text read from a saved scan: the file is parsed as JSON and
   * its `item_name` serialized when that is truthy, the whole record otherwise.
   * None when the parse throws, or when the file holds `null` (reading
   * `item_name` of it throws).
   */
  function ScanText(contents: string, env: Env): (r: Option<string>)
    ensures r.None? <==> env.jsonParse(contents).Err? || env.jsonParse(contents) == Ok(JNull)
    ensures r.Some? ==> var data := env.jsonParse(contents).value;
      if data.JObject? && ItemName in data.fields && Truthy(data.fields[ItemName])
      then r.value == env.stringify(data.fields[ItemName])
      else r.value == env.stringify(data)
  {
    match env.jsonParse(contents)
    case Err(_) => None
    case Ok(data) =>
      if data.JNull? then None
      else
        match Property(data, ItemName)
        case Some(name) => if Truthy(name) then Some(env.stringify(name)) else Some(env.stringify(data))
        case None => Some(env.stringify(data))
  }

  /**
   * The ingredient text of a recipe request: with a truthy `existingFile`, the
   * latest scan in the directory (404 when there is none); otherwise the
   * truthy `ingredients` value as a template literal renders it (an array
   * joined with ","), unless that rendering throws; otherwise nothing (400).
   */
  function RecipeSource(body: map<string, Json>, dir: map<string, string>, env: Env): (r: IngredientSource)
    ensures FieldTruthy(body, "existingFile") ==> (r.NoScans? <==> Latest(dir.Keys).None?)
    ensures FieldTruthy(body, "existingFile") && Latest(dir.Keys).Some? ==>
      var scan := ScanText(dir[Latest(dir.Keys).value], env);
      r == if scan.Some? then FromText(scan.value) else Unreadable
    ensures !FieldTruthy(body, "existingFile") && FieldTruthy(body, "ingredients") ==>
      && (r.Unconvertible? <==> ConversionThrows(body["ingredients"]))
      && (!ConversionThrows(body["ingredients"]) ==> r == FromText(ToJsString(body["ingredients"]).value))
    ensures !FieldTruthy(body, "existingFile") && !FieldTruthy(body, "ingredients") ==> r == NoIngredients
  {
    if FieldTruthy(body, "existingFile") then
      match Latest(dir.Keys)
      case None => NoScans
      case Some(latest) =>
        match ScanText(dir[latest], env)
        case None => Unreadable
        case Some(text) => FromText(text)
    else if FieldTruthy(body, "ingredients") then
      match ToJsString(body["ingredients"])
      case None => Unconvertible
      case Some(text) => FromText(text)
    else NoIngredients
  }

  /**
   * POST /api/recipe/generate: the recipe prompt with the ingredient text is
   * sent, and the fenced answer parsed with json5 is returned as `recipes`.
   * The handler never touches the filesystem.
   */
  function RecipeGenerate(body: map<string, Json>, dir: map<string, string>, env: Env): (r: Outcome)
    ensures r.effects == []
    ensures r.response.status in {200, 400, 404, 500}
    ensures r.response.status == 404 <==> RecipeSource(body, dir, env).NoScans?
    ensures r.response.status == 400 <==> RecipeSource(body, dir, env).NoIngredients?
    ensures r.response.status == 404 ==> r.response == ErrorJson(404, NoScansFound)
    ensures r.response.status == 400 ==> r.response == ErrorJson(400, NoIngredientsProvided)
    ensures r.response.status == 500 ==> r.response == ErrorJson(500, RecipeError)
    ensures RecipeSource(body, dir, env).Unreadable? || RecipeSource(body, dir, env).Unconvertible? ==>
      r.response.status == 500
    ensures r.response.status == 200 <==>
      && RecipeSource(body, dir, env).FromText?
      && env.generate(TextPrompt(RecipePrompt(RecipeSource(body, dir, env).text))).Ok?
      && ParseGenerated(env.generate(TextPrompt(RecipePrompt(RecipeSource(body, dir, env).text))).value, env).Ok?
    ensures r.response.status == 200 ==>
      var recipes := ParseGenerated(env.generate(TextPrompt(RecipePrompt(RecipeSource(body, dir, env).text))).value, env).value;
      r.response == Response(200, JsonBody(JObject(map["success" := JBool(true), "recipes" := recipes])))
  {
    match RecipeSource(body, dir, env)
    case NoScans => Outcome(ErrorJson(404, NoScansFound), [])
    case NoIngredients => Outcome(ErrorJson(400, NoIngredientsProvided), [])
    case Unreadable => Outcome(ErrorJson(500, RecipeError), [])
    case Unconvertible => Outcome(ErrorJson(500, RecipeError), [])
    case FromText(text) =>
      match env.generate(TextPrompt(RecipePrompt(text)))
      case Err(_) => Outcome(ErrorJson(500, RecipeError), [])
      case Ok(generated) =>
        match ParseGenerated(generated, env)
        case Err(_) => Outcome(ErrorJson(500, RecipeError), [])
        case Ok(recipes) =>
          Outcome(Response(200, JsonBody(JObject(map["success" := JBool(true), "recipes" := recipes]))), [])
  }

  /**
   * A truthy `existingFile` takes precedence: the `ingredients` field then has
   * no influence on the outcome, whatever it holds.
   */
  lemma ExistingFileTakesPrecedence(body: map<string, Json>, other: Json, dir: map<string, string>, env: Env)
    requires FieldTruthy(body, "existingFile")
    ensures RecipeGenerate(body["ingredients" := other], dir, env) == RecipeGenerate(body, dir, env)
  {
    var body' := body["ingredients" := other];
    assert body'["existingFile"] == body["existingFile"];
    assert RecipeSource(body', dir, env) == RecipeSource(body, dir, env);
  }

  /**
   * Reading a scan saved by the ingredient parsers falls back to the whole
   * record only when its `item_name` is `false`, `0` or `""`, since the
   * normalizer replaces a missing or null name by the truthy `{}`.
   */
  lemma ScanFallbackOnlyForFalsyName(payload: Json, env: Env)
    requires !payload.JNull?
    requires var saved := JObject(UniversalIngredient(payload).value);
      env.jsonParse(env.stringify(saved)) == Ok(saved)
    ensures var saved := JObject(UniversalIngredient(payload).value);
      var text := ScanText(env.stringify(saved), env);
      && text.Some?
      && (text.value == env.stringify(saved) && text.value != env.stringify(saved.fields[ItemName]) ==>
            payload.fields[ItemName] in {JBool(false), JInt(0), JString("")})
  {
    IngredientNameFalsyOnlyIfPayloadFalsy(payload);
  }

  /** The recipe endpoint renders an ingredients array with ",", unlike parse-text's ", ". */
  lemma RecipeJoinsWithComma(body: map<string, Json>, dir: map<string, string>, env: Env)
    requires !FieldTruthy(body, "existingFile")
    requires "ingredients" in body && body["ingredients"] == JArray([JString("egg"), JString("milk")])
    ensures RecipeSource(body, dir, env) == FromText("egg,milk")
    ensures IngredientsText(body["ingredients"]) == Some("egg, milk")
  {
    var xs := [JString("egg"), JString("milk")];
    var names := ["egg", "milk"];
    assert names[1..] == ["milk"];
    var parts := seq(|xs|, k requires 0 <= k < |xs| => if xs[k].JNull? then Some("") else ToJsString(xs[k]));
    assert AllSome(parts).value == names;
    var elements := seq(|xs|, i requires 0 <= i < |xs| => ElementString(xs[i]));
    assert AllSome(elements).value == names;
    assert Join(names, ",") == "egg,milk";
    assert Join(names, ListSeparator) == "egg, milk";
  }

  /** An ingredient list one of whose elements carries its own `toString` key. */
  const UnrenderableList := JArray([JString("egg"), JObject(map[ToStringKey := JInt(1)])])

  /** The list cannot be rendered: parse-text answers 500 "Error processing text" without asking the backend. */
  lemma OwnToStringRejectedByParseText(visionPrompt: string, env: Env)
    ensures ParseText(map["ingredients" := UnrenderableList], visionPrompt, env) == Outcome(TextResponse(500, TextError), [])
  {
    assert ConversionThrows(UnrenderableList) by {
      assert ConversionThrows(UnrenderableList.items[1]);
    }
  }

  /** The same list makes the recipe endpoint answer 500 "Error generating recipes" without asking the backend. */
  lemma OwnToStringRejectedByRecipe(dir: map<string, string>, env: Env)
    ensures RecipeGenerate(map["ingredients" := UnrenderableList], dir, env) == Outcome(ErrorJson(500, RecipeError), [])
  {
    assert ConversionThrows(UnrenderableList) by {
      assert ConversionThrows(UnrenderableList.items[1]);
    }
  }
}

=== FILE: strings.dfy ===
/**
 * String operations the pipeline relies on, stated over `string` (= `seq<char>`):
 * substring search as the regex engine and `startsWith`/`endsWith` see it,
 * the decimal rendering of a millisecond timestamp, the default order of
 * `Array.prototype.sort`, `String.prototype.trim`, and `join`.
 */
module Strings {
  import opened Results

  // ---------------------------------------------------------------------------
  // Prefixes, suffixes and occurrences
  // ---------------------------------------------------------------------------

  predicate StartsWith(s: string, prefix: string) {
    |prefix| <= |s| && s[..|prefix|] == prefix
  }

  predicate EndsWith(s: string, suffix: string) {
    |suffix| <= |s| && s[|s| - |suffix|..] == suffix
  }

  /** `pat` occurs in `s` starting at index `k`. */
  predicate OccursAt(pat: string, s: string, k: nat) {
    k + |pat| <= |s| && s[k..k + |pat|] == pat
  }

  predicate Contains(s: string, pat: string) {
    exists k: nat | k <= |s| :: OccursAt(pat, s, k)
  }

  /** The suffix of `pat` that starts at `m` is also a prefix of it. */
  predicate IsBorder(pat: string, m: nat)
    requires m <= |pat|
  {
    pat[m..] == pat[..|pat| - m]
  }

  /** No proper suffix of `pat` is also a prefix of it, so two occurrences never overlap. */
  predicate Unbordered(pat: string) {
    forall m: nat :: 0 < m < |pat| ==> !IsBorder(pat, m)
  }

  /** The first index at or after `from` where `pat` occurs. */
  function FindFrom(pat: string, s: string, from: nat): (r: Option<nat>)
    ensures r.Some? ==> from <= r.value && OccursAt(pat, s, r.value)
    ensures r.Some? ==> forall k: nat :: from <= k < r.value ==> !OccursAt(pat, s, k)
    ensures r.None? ==> forall k: nat :: from <= k ==> !OccursAt(pat, s, k)
    decreases |s| - from
  {
    if from + |pat| > |s| then None
    else if OccursAt(pat, s, from) then Some(from)
    else FindFrom(pat, s, from + 1)
  }

  /** A string lacking one of the characters of `pat` does not contain `pat`. */
  lemma AbsentCharNoOccurrence(pat: string, s: string, i: nat)
    requires i < |pat|
    requires forall k :: 0 <= k < |s| ==> s[k] != pat[i]
    ensures !Contains(s, pat)
  {
    forall k: nat | k <= |s|
      ensures !OccursAt(pat, s, k)
    {
      if k + |pat| <= |s| {
        assert s[k..k + |pat|][i] == s[k + i];
      }
    }
  }

  /** Two occurrences of `pat` that overlap exhibit a border of `pat`. */
  lemma OverlapIsBorder(pat: string, s: string, k: nat, j: nat)
    requires OccursAt(pat, s, j)
    requires k < j < k + |pat|
    ensures OccursAt(pat, s, k) ==> IsBorder(pat, j - k)
  {
    if OccursAt(pat, s, k) {
      var m := j - k;
      forall i | 0 <= i < |pat| - m
        ensures pat[m..][i] == pat[..|pat| - m][i]
      {
        assert pat[m + i] == s[k + m + i];
        assert s[j + i] == pat[i];
      }
    }
  }

  /** An occurrence lying wholly inside the middle part of `a + p + tail` is an occurrence in `p`. */
  lemma OccurrenceInside(pat: string, a: string, p: string, tail: string, k: nat)
    requires |a| <= k && k + |pat| <= |a| + |p|
    ensures OccursAt(pat, a + p + tail, k) <==> OccursAt(pat, p, k - |a|)
  {
    assert (a + p + tail)[k..k + |pat|] == p[k - |a|..k - |a| + |pat|];
  }

  /** The search finds `k` when `k` is the first occurrence at or after `from`. */
  lemma FindFromIs(pat: string, s: string, from: nat, k: nat)
    requires from <= k && OccursAt(pat, s, k)
    requires forall i: nat :: from <= i < k ==> !OccursAt(pat, s, i)
    ensures FindFrom(pat, s, from) == Some(k)
  {
  }

  /**
   * Searching `a + p + pat + rest` from the end of `a`, the first occurrence of an
   * unbordered `pat` is the one right after `p`, provided `p` does not contain `pat`.
   */
  lemma FirstOccurrenceAfter(pat: string, a: string, p: string, rest: string)
    requires Unbordered(pat)
    requires !Contains(p, pat)
    ensures FindFrom(pat, a + p + pat + rest, |a|) == Some(|a| + |p|)
  {
    var s := a + p + pat + rest;
    var at := |a| + |p|;
    assert s[at..at + |pat|] == pat;
    forall k: nat | |a| <= k < at
      ensures !OccursAt(pat, s, k)
    {
      if k + |pat| <= at {
        OccurrenceInside(pat, a, p, pat + rest, k);
        assert a + p + (pat + rest) == s;
        assert !OccursAt(pat, p, k - |a|);
      } else {
        OverlapIsBorder(pat, s, k, at);
        assert !IsBorder(pat, at - k);
      }
    }
    FindFromIs(pat, s, |a|, at);
  }

  // ---------------------------------------------------------------------------
  // Decimal rendering of natural numbers (JavaScript `${n}` for a timestamp)
  // ---------------------------------------------------------------------------

  predicate IsDigit(c: char) {
    '0' <= c <= '9'
  }

  predicate AllDigits(s: string) {
    forall i :: 0 <= i < |s| ==> IsDigit(s[i])
  }

  function DigitChar(d: nat): (c: char)
    requires d < 10
    ensures IsDigit(c)
  {
    ('0' as int + d) as char
  }

  function DigitValue(c: char): (d: nat)
    requires IsDigit(c)
    ensures d < 10 && DigitChar(d) == c
  {
    c as int - '0' as int
  }

  /** Base-10 digits of `n`, most significant first, without leading zeros. */
  function Decimal(n: nat): (r: string)
    ensures 1 <= |r| && AllDigits(r)
    ensures r[0] == '0' ==> n == 0
  {
    if n < 10 then [DigitChar(n)] else Decimal(n / 10) + [DigitChar(n % 10)]
  }

  /** The number a string of digits denotes (leading zeros allowed). */
  function DecimalValue(s: string): nat
    requires AllDigits(s)
  {
    if |s| == 0 then 0 else 10 * DecimalValue(s[..|s| - 1]) + DigitValue(s[|s| - 1])
  }

  /** Reading back a rendered number gives the number. */
  lemma {:induction false} DecimalRoundTrip(n: nat)
    ensures DecimalValue(Decimal(n)) == n
  {
    var r := Decimal(n);
    if n < 10 {
      assert r[..0] == [];
    } else {
      assert r[..|r| - 1] == Decimal(n / 10);
      DecimalRoundTrip(n / 10);
    }
  }

  lemma DecimalInjective(a: nat, b: nat)
    ensures Decimal(a) == Decimal(b) <==> a == b
  {
    DecimalRoundTrip(a);
    DecimalRoundTrip(b);
  }

  // ---------------------------------------------------------------------------
  // The default order of Array.prototype.sort: element-wise character order
  // ---------------------------------------------------------------------------

  /** `a` sorts no later than `b`. */
  predicate LexLe(a: string, b: string) {
    |a| == 0 || (|b| > 0 && (a[0] < b[0] || (a[0] == b[0] && LexLe(a[1..], b[1..]))))
  }

  lemma LexReflexive(a: string)
    ensures LexLe(a, a)
  {
  }

  lemma LexAntisymmetric(a: string, b: string)
    requires LexLe(a, b) && LexLe(b, a)
    ensures a == b
  {
    if |a| > 0 {
      LexAntisymmetric(a[1..], b[1..]);
    }
  }

  lemma LexTransitive(a: string, b: string, c: string)
    requires LexLe(a, b) && LexLe(b, c)
    ensures LexLe(a, c)
  {
    if |a| > 0 && a[0] == b[0] && b[0] == c[0] {
      LexTransitive(a[1..], b[1..], c[1..]);
    }
  }

  lemma LexTotal(a: string, b: string)
    ensures LexLe(a, b) || LexLe(b, a)
  {
    if |a| > 0 && |b| > 0 && a[0] == b[0] {
      LexTotal(a[1..], b[1..]);
    }
  }

  lemma LexAntisymmetricAll()
    ensures forall a, b :: LexLe(a, b) && LexLe(b, a) ==> a == b
  {
    forall a, b | LexLe(a, b) && LexLe(b, a)
      ensures a == b
    {
      LexAntisymmetric(a, b);
    }
  }

  /**
   * Comparing `x + u` with `y + v` where `x` and `y` have the same length: the
   * first parts decide unless they are equal, in which case the rest decide.
   */
  lemma {:induction false} LexAppend(x: string, u: string, y: string, v: string)
    requires |x| == |y|
    ensures LexLe(x + u, y + v) <==> (x != y && LexLe(x, y)) || (x == y && LexLe(u, v))
  {
    if |x| == 0 {
      assert x + u == u && y + v == v;
    } else {
      assert (x + u)[0] == x[0] && (y + v)[0] == y[0];
      assert (x + u)[1..] == x[1..] + u && (y + v)[1..] == y[1..] + v;
      LexAppend(x[1..], u, y[1..], v);
      assert x == y <==> x[0] == y[0] && x[1..] == y[1..];
    }
  }

  /** For numbers rendered with the same number of digits, text order is numeric order. */
  lemma {:induction false} DecimalOrder(a: nat, b: nat)
    requires |Decimal(a)| == |Decimal(b)|
    ensures LexLe(Decimal(a), Decimal(b)) <==> a <= b
  {
    if a < 10 && b < 10 {
      assert LexLe([], []);
    } else if a >= 10 && b >= 10 {
      var x, y := Decimal(a / 10), Decimal(b / 10);
      var u, v := [DigitChar(a % 10)], [DigitChar(b % 10)];
      LexAppend(x, u, y, v);
      DecimalOrder(a / 10, b / 10);
      DecimalInjective(a / 10, b / 10);
      assert LexLe(u, v) <==> a % 10 <= b % 10 by {
        assert u[1..] == [] && v[1..] == [];
      }
      assert a == 10 * (a / 10) + a % 10 && b == 10 * (b / 10) + b % 10;
    }
  }

  // ---------------------------------------------------------------------------
  // String.prototype.trim
  // ---------------------------------------------------------------------------

  /** The ECMAScript WhiteSpace and LineTerminator code points. */
  predicate IsJsSpace(c: char) {
    || c == '\t' || c == '\n' || c == '\U{000B}' || c == '\U{000C}' || c == '\r' || c == ' '
    || c == '\U{00A0}' || c == '\U{1680}' || ('\U{2000}' <= c <= '\U{200A}')
    || c == '\U{2028}' || c == '\U{2029}' || c == '\U{202F}' || c == '\U{205F}'
    || c == '\U{3000}' || c == '\U{FEFF}'
  }

  predicate AllSpace(s: string) {
    forall i :: 0 <= i < |s| ==> IsJsSpace(s[i])
  }

  function TrimStart(s: string): (r: string)
    ensures |r| <= |s| && r == s[|s| - |r|..]
    ensures AllSpace(s[..|s| - |r|])
    ensures |r| == 0 || !IsJsSpace(r[0])
  {
    if |s| > 0 && IsJsSpace(s[0]) then
      var r := TrimStart(s[1..]);
      assert s[..|s| - |r|] == [s[0]] + s[1..][..|s[1..]| - |r|];
      r
    else s
  }

  function TrimEnd(s: string): (r: string)
    ensures |r| <= |s| && r == s[..|r|]
    ensures AllSpace(s[|r|..])
    ensures |r| == 0 || !IsJsSpace(r[|r| - 1])
  {
    if |s| > 0 && IsJsSpace(s[|s| - 1]) then
      var r := TrimEnd(s[..|s| - 1]);
      assert s[|r|..] == s[..|s| - 1][|r|..] + [s[|s| - 1]];
      r
    else s
  }

  function Trim(s: string): (r: string)
    ensures |r| <= |s|
    ensures |s| > 0 && !IsJsSpace(s[0]) && !IsJsSpace(s[|s| - 1]) ==> r == s
  {
    TrimEnd(TrimStart(s))
  }

  /**
   * `trim` removes exactly the leading and trailing white space: what is left is a
   * contiguous piece of the input that neither starts nor ends with white space.
   */
  lemma TrimSpec(s: string)
    ensures exists i, j :: 0 <= i <= j <= |s| && Trim(s) == s[i..j] && AllSpace(s[..i]) && AllSpace(s[j..])
    ensures |Trim(s)| == 0 || (!IsJsSpace(Trim(s)[0]) && !IsJsSpace(Trim(s)[|Trim(s)| - 1]))
  {
    TrimIsSlice(s);
    TrimEnds(s);
  }

  lemma TrimIsSlice(s: string)
    ensures exists i, j :: 0 <= i <= j <= |s| && Trim(s) == s[i..j] && AllSpace(s[..i]) && AllSpace(s[j..])
  {
    var t := TrimStart(s);
    var r := TrimEnd(t);
    var i := |s| - |t|;
    var j := i + |r|;
    assert Trim(s) == s[i..j] by {
      assert t == s[i..] && r == t[..|r|];
    }
    assert AllSpace(s[j..]) by {
      assert t == s[i..] && s[j..] == t[|r|..];
    }
  }

  lemma TrimEnds(s: string)
    ensures |Trim(s)| == 0 || (!IsJsSpace(Trim(s)[0]) && !IsJsSpace(Trim(s)[|Trim(s)| - 1]))
  {
    var t := TrimStart(s);
    var r := TrimEnd(t);
    if |r| > 0 {
      assert r[0] == t[0];
    }
  }

  /** A string that neither starts nor ends with white space is its own trim. */
  lemma TrimUnchanged(s: string)
    requires |s| > 0 && !IsJsSpace(s[0]) && !IsJsSpace(s[|s| - 1])
    ensures Trim(s) == s
  {
    assert TrimStart(s) == s;
  }

  lemma TrimIdempotent(s: string)
    ensures Trim(Trim(s)) == Trim(s)
  {
    var r := Trim(s);
    TrimSpec(s);
    if |r| > 0 {
      assert TrimStart(r) == r;
      assert TrimEnd(r) == r;
    }
  }

  // ---------------------------------------------------------------------------
  // Array.prototype.join and its inverse
  // ---------------------------------------------------------------------------

  function Join(xs: seq<string>, sep: string): string {
    if |xs| == 0 then "" else if |xs| == 1 then xs[0] else xs[0] + sep + Join(xs[1..], sep)
  }

  /** Cuts `s` at every occurrence of `sep`, left to right. */
  function Split(s: string, sep: string): (r: seq<string>)
    requires |sep| > 0
    ensures |r| >= 1
    decreases |s|
  {
    match FindFrom(sep, s, 0)
    case None => [s]
    case Some(k) => [s[..k]] + Split(s[k + |sep|..], sep)
  }

  /** Joining pieces that do not contain the separator can be undone by splitting. */
  lemma {:induction false} SplitJoin(xs: seq<string>, sep: string)
    requires |sep| > 0 && Unbordered(sep)
    requires |xs| >= 1
    requires forall i :: 0 <= i < |xs| ==> !Contains(xs[i], sep)
    ensures Split(Join(xs, sep), sep) == xs
  {
    if |xs| == 1 {
      assert FindFrom(sep, xs[0], 0).None?;
    } else {
      SplitFirstPiece(xs[0], sep, Join(xs[1..], sep));
      SplitJoin(xs[1..], sep);
      assert [xs[0]] + xs[1..] == xs;
    }
  }

  /** A leading piece without the separator is cut off first. */
  lemma SplitFirstPiece(x: string, sep: string, rest: string)
    requires |sep| > 0 && Unbordered(sep)
    requires !Contains(x, sep)
    ensures Split(x + sep + rest, sep) == [x] + Split(rest, sep)
  {
    assert FindFrom(sep, x + sep + rest, 0) == Some(|x|) by {
      FirstOccurrenceAfter(sep, "", x, rest);
      assert "" + x + sep + rest == x + sep + rest;
    }
    AroundSlices(x, sep, rest);
  }

  lemma AroundSlices(a: string, b: string, c: string)
    ensures (a + b + c)[..|a|] == a
    ensures (a + b + c)[|a| + |b|..] == c
  {
    assert a + b + c == a + (b + c);
  }
}

=== FILE: tls.dfy ===
/**
 * Start-up of server.js: make sure `certificates/` exists, load the key and
 * certificate from it or generate a self-signed pair and save it, start HTTPS
 * on 3443 when that worked, and start plain HTTP on 3000 in every case.
 * The certificate generator and `https.createServer`'s acceptance of the pair
 * are oracles.
 */
module TlsBootstrap {
  import opened Results

  const HttpPort: nat := 3000
  const HttpsPort: nat := 3443
  const CertDir := "certificates"
  const KeyPath := "certificates/key.pem"
  const CertPath := "certificates/cert.pem"

  /** The files (path to contents) and directories present. */
  datatype Fs = Fs(files: map<string, string>, dirs: set<string>)

  datatype CertPair = CertPair(privateKey: string, cert: string)

  /** What the self-signed generator is asked for: the subject's common name and a validity. */
  datatype CertRequest = CertRequest(commonName: string, days: nat)

  const SelfSigned := CertRequest("localhost", 365)

  datatype Listener = Https(port: nat, options: CertPair) | Plain(port: nat)

  datatype Startup = Startup(fs: Fs, listeners: seq<Listener>)

  predicate HasCerts(fs: Fs) {
    KeyPath in fs.files && CertPath in fs.files
  }

  function StoredPair(fs: Fs): CertPair
    requires HasCerts(fs)
  {
    CertPair(fs.files[KeyPath], fs.files[CertPath])
  }

  /** Creates the certificate directory when it is missing; files are untouched. */
  function EnsureCertDir(fs: Fs): (r: Fs)
    ensures r.dirs == fs.dirs + {CertDir}
    ensures r.files == fs.files
  {
    if CertDir in fs.dirs then fs else Fs(fs.files, fs.dirs + {CertDir})
  }

  /**
   * The HTTPS options: the stored pair when both files exist; otherwise a
   * freshly generated pair, written key first, then certificate (overwriting a
   * lone survivor of an earlier pair). None when the generator throws.
   */
  function HttpsOptions(fs: Fs, generate: CertRequest -> Option<CertPair>): (r: (Fs, Option<CertPair>))
    ensures r.1.Some? <==> HasCerts(fs) || generate(SelfSigned).Some?
    ensures r.1.Some? ==> HasCerts(r.0) && StoredPair(r.0) == r.1.value
    ensures r.1.None? ==> r.0 == fs
    ensures HasCerts(fs) ==> r.0 == fs
    ensures !HasCerts(fs) && generate(SelfSigned).Some? ==>
      var pems := generate(SelfSigned).value;
      r.1 == Some(pems) && r.0.files == fs.files[KeyPath := pems.privateKey][CertPath := pems.cert]
    ensures r.0.dirs == fs.dirs
    ensures forall p :: p != KeyPath && p != CertPath ==>
      (p in r.0.files <==> p in fs.files) && (p in fs.files ==> r.0.files[p] == fs.files[p])
  {
    if HasCerts(fs) then (fs, Some(StoredPair(fs)))
    else
      match generate(SelfSigned)
      case None => (fs, None)
      case Some(pems) =>
        (Fs(fs.files[KeyPath := pems.privateKey][CertPath := pems.cert], fs.dirs), Some(pems))
  }

  /**
   * The whole start-up. A generator failure, or a pair the HTTPS server
   * rejects, is caught and only HTTPS is skipped.
   */
  function Start(fs: Fs, generate: CertRequest -> Option<CertPair>, accepts: CertPair -> bool): (r: Startup)
    ensures CertDir in r.fs.dirs
    ensures |r.listeners| == 1 || |r.listeners| == 2
    ensures r.listeners[|r.listeners| - 1] == Plain(HttpPort)
    ensures |r.listeners| == 2 ==>
      r.listeners[0].Https? && r.listeners[0].port == HttpsPort
      && HasCerts(r.fs) && r.listeners[0].options == StoredPair(r.fs) && accepts(StoredPair(r.fs))
    ensures HasCerts(r.fs) <==> HasCerts(fs) || generate(SelfSigned).Some?
    ensures HasCerts(fs) ==> r.fs.files == fs.files && (|r.listeners| == 2 <==> accepts(StoredPair(fs)))
    ensures !HasCerts(fs) && generate(SelfSigned).Some? ==>
      var pems := generate(SelfSigned).value;
      && r.fs.files == fs.files[KeyPath := pems.privateKey][CertPath := pems.cert]
      && (|r.listeners| == 2 <==> accepts(pems))
  {
    var (fs', options) := HttpsOptions(EnsureCertDir(fs), generate);
    var https := if options.Some? && accepts(options.value) then [Https(HttpsPort, options.value)] else [];
    Startup(fs', https + [Plain(HttpPort)])
  }

  /**
   * Restarting after a start-up that produced certificates reuses them: the
   * second start-up generates nothing, changes no file and serves the same pair,
   * whatever the generator would produce this time.
   */
  lemma RestartReusesCertificates(fs: Fs, generate: CertRequest -> Option<CertPair>, accepts: CertPair -> bool,
                                  generate': CertRequest -> Option<CertPair>)
    requires HasCerts(Start(fs, generate, accepts).fs)
    ensures var first := Start(fs, generate, accepts);
      var second := Start(first.fs, generate', accepts);
      && second.fs == first.fs
      && second.listeners == first.listeners
  {
    var first := Start(fs, generate, accepts);
    assert EnsureCertDir(first.fs) == first.fs;
  }

  /** With a working generator, a missing or half-missing pair is replaced and HTTPS comes up with it. */
  lemma MissingCertificatesGenerated(fs: Fs, pems: CertPair, accepts: CertPair -> bool)
    requires !HasCerts(fs)
    requires accepts(pems)
    ensures var r := Start(fs, _ => Some(pems), accepts);
      && r.fs.files == fs.files[KeyPath := pems.privateKey][CertPath := pems.cert]
      && r.listeners == [Https(HttpsPort, pems), Plain(HttpPort)]
  {
  }

  /** When certificates cannot be had, the server still comes up over plain HTTP and writes nothing. */
  lemma HttpWithoutCertificates(fs: Fs, accepts: CertPair -> bool)
    requires !HasCerts(fs)
    ensures var r := Start(fs, _ => None, accepts);
      r.listeners == [Plain(HttpPort)] && r.fs.files == fs.files
  {
  }
}

=== FILE: vision.dfy ===
/**
 * The handlers of vision_module.js. Its `generate` trims the backend's text and
 * the handlers hand that text to json5 directly, with no fence extraction.
 *
 * /parse-image and /parse-text construct `new UniversalHealthReport(...)`, a
 * class this module neither defines nor imports: once json5 has accepted the
 * payload the constructor call throws a ReferenceError, and the outer handler
 * answers 500. `ParseImageAsWritten` and `ParseTextAsWritten` model that code;
 * `ParseImage` and `ParseText` model the evident intent, the `UniversalIngredient`
 * normalization that /parse-uploaded-image performs.
 */
module VisionHandlers {
  import opened Results
  import opened Strings
  import opened JsonValue
  import opened Records
  import opened Artifacts
  import opened Generation
  import opened Http

  const ImageFieldsMissing := "Image and mimeType required"
  const ImageError := "Error processing image"
  const IngredientsMissing := "Ingredients list required"
  const TextError := "Error processing text"
  const UploadedImageError := "Error processing uploaded image"

  /**
   * After json5 accepted `payload`: normalize it with `UniversalIngredient`, save
   * it as `IngredienetList_<ts>.json`, run the clean-up effects, and answer with
   * the record. A `null` payload throws in the constructor, which the outer
   * handler answers with `failure` and no effects.
   */
  function SaveIngredient(payload: Json, env: Env, failure: string, cleanup: seq<Effect>): (r: Outcome)
    ensures r.response.status == 200 <==> !payload.JNull?
    ensures payload.JNull? ==> r == Outcome(TextResponse(500, failure), [])
    ensures !payload.JNull? ==>
      var name := ArtifactName(IngredientPrefix, env.ts);
      var data := JObject(UniversalIngredient(payload).value);
      r.response == SavedResponse(name, data) && r.effects == [WriteFile(name, env.stringify(data))] + cleanup
  {
    match UniversalIngredient(payload)
    case Err(_) => Outcome(TextResponse(500, failure), [])
    case Ok(record) =>
      var name := ArtifactName(IngredientPrefix, env.ts);
      Outcome(SavedResponse(name, JObject(record)), [WriteFile(name, env.stringify(JObject(record)))] + cleanup)
  }

  /** The request /parse-image and /parse-uploaded-image send: the prompt and the image. */
  function ImageRequest(prompt: string, bytes: string, mimeType: Json): (r: GenRequest)
    ensures r.Multimodal? && r.prompt == prompt && r.image.bytes == bytes
    ensures Truthy(r.image.mimeType)
    ensures Truthy(mimeType) ==> r.image.mimeType == mimeType
    ensures !Truthy(mimeType) ==> r.image.mimeType == JString(DefaultMime)
  {
    Content(prompt, Some(bytes), mimeType)
  }

  /**
   * The request /parse-text sends: the ingredient text embedded in the prompt.
   * None when rendering the value throws, in the join of the handler or in the
   * template of `generate`.
   */
  function TextRequest(prompt: string, ingredients: Json): (r: Option<GenRequest>)
    ensures r.None? <==> ConversionThrows(ingredients)
    ensures r.Some? ==> r.value.TextPrompt?
    ensures r.Some? ==> DocumentTextOf(prompt, IngredientInstruction, r.value.text) == IngredientsText(ingredients)
  {
    match IngredientsText(ingredients)
    case None => None
    case Some(text) => Some(TextPrompt(DocumentPrompt(prompt, text, IngredientInstruction)))
  }

  // ---------------------------------------------------------------------------
  // POST /parse-image
  // ---------------------------------------------------------------------------

  /** POST /parse-image as written: it can refuse or fail, never save. */
  function ParseImageAsWritten(body: map<string, Json>, prompt: string, env: Env): (r: Outcome)
    ensures r.effects == []
    ensures r.response.status == 400 || r.response.status == 500
    ensures r.response.status == 400 <==> !FieldTruthy(body, "image") || !FieldTruthy(body, "mimeType")
  {
    if !FieldTruthy(body, "image") || !FieldTruthy(body, "mimeType") then
      Outcome(TextResponse(400, ImageFieldsMissing), [])
    else
      match env.toBuffer(body["image"])
      case Err(_) => Outcome(TextResponse(500, ImageError), [])
      case Ok(bytes) =>
        match GenerateTrimmed(env, ImageRequest(prompt, bytes, body["mimeType"]))
        case Err(_) => Outcome(TextResponse(500, ImageError), [])
        case Ok(text) =>
          match env.json5(text)
          case Err(message) => Outcome(TextResponse(500, ParseErrorPrefix + message), [])
          case Ok(_) => Outcome(TextResponse(500, ImageError), [])
  }

  /**
   * POST /parse-image as intended: the same checks and requests, the payload
   * normalized with `UniversalIngredient` and saved.
   */
  function ParseImage(body: map<string, Json>, prompt: string, env: Env): (r: Outcome)
    ensures r.response.status == 400 <==> !FieldTruthy(body, "image") || !FieldTruthy(body, "mimeType")
    ensures r.response.status in {200, 400, 500}
    ensures r.response.status != 200 ==> r.effects == []
    ensures r.response.status == 200 <==>
      && FieldTruthy(body, "image") && FieldTruthy(body, "mimeType")
      && env.toBuffer(body["image"]).Ok?
      && GenerateTrimmed(env, ImageRequest(prompt, env.toBuffer(body["image"]).value, body["mimeType"])).Ok?
      && var text := GenerateTrimmed(env, ImageRequest(prompt, env.toBuffer(body["image"]).value, body["mimeType"])).value;
         env.json5(text).Ok? && !env.json5(text).value.JNull?
    ensures r.response.status == 200 ==>
      r.effects == [WriteFile(ArtifactName(IngredientPrefix, env.ts), env.stringify(ResponseData(r.response)))]
    ensures r.response.status == 200 ==>
      var answer := GenerateTrimmed(env, ImageRequest(prompt, env.toBuffer(body["image"]).value, body["mimeType"]));
      ResponseData(r.response) == JObject(UniversalIngredient(env.json5(answer.value).value).value)
  {
    if !FieldTruthy(body, "image") || !FieldTruthy(body, "mimeType") then
      Outcome(TextResponse(400, ImageFieldsMissing), [])
    else
      match env.toBuffer(body["image"])
      case Err(_) => Outcome(TextResponse(500, ImageError), [])
      case Ok(bytes) =>
        match GenerateTrimmed(env, ImageRequest(prompt, bytes, body["mimeType"]))
        case Err(_) => Outcome(TextResponse(500, ImageError), [])
        case Ok(text) =>
          match env.json5(text)
          case Err(message) => Outcome(TextResponse(500, ParseErrorPrefix + message), [])
          case Ok(payload) => SaveIngredient(payload, env, ImageError, [])
  }

  /**
   * The two disagree exactly where the intended handler succeeds: there the
   * code as written answers 500 "Error processing image" and saves nothing;
   * everywhere else they answer alike.
   */
  lemma ParseImageReferenceError(body: map<string, Json>, prompt: string, env: Env)
    ensures ParseImage(body, prompt, env).response.status == 200 ==>
      ParseImageAsWritten(body, prompt, env) == Outcome(TextResponse(500, ImageError), [])
    ensures ParseImage(body, prompt, env).response.status != 200 ==>
      ParseImageAsWritten(body, prompt, env) == ParseImage(body, prompt, env)
  {
  }

  // ---------------------------------------------------------------------------
  // POST /parse-text
  // ---------------------------------------------------------------------------

  /** POST /parse-text as written: it can refuse or fail, never save. */
  function ParseTextAsWritten(body: map<string, Json>, prompt: string, env: Env): (r: Outcome)
    ensures r.effects == []
    ensures r.response.status == 400 || r.response.status == 500
    ensures r.response.status == 400 <==> !FieldTruthy(body, "ingredients")
    ensures FieldTruthy(body, "ingredients") && ConversionThrows(body["ingredients"]) ==>
      r == Outcome(TextResponse(500, TextError), [])
  {
    if !FieldTruthy(body, "ingredients") then
      Outcome(TextResponse(400, IngredientsMissing), [])
    else
      match TextRequest(prompt, body["ingredients"])
      case None => Outcome(TextResponse(500, TextError), [])
      case Some(request) =>
        match GenerateTrimmed(env, request)
        case Err(_) => Outcome(TextResponse(500, TextError), [])
        case Ok(text) =>
          match env.json5(text)
          case Err(message) => Outcome(TextResponse(500, ParseErrorPrefix + message), [])
          case Ok(_) => Outcome(TextResponse(500, TextError), [])
  }

  /** POST /parse-text as intended: the payload normalized with `UniversalIngredient` and saved. */
  function ParseText(body: map<string, Json>, prompt: string, env: Env): (r: Outcome)
    ensures r.response.status == 400 <==> !FieldTruthy(body, "ingredients")
    ensures r.response.status in {200, 400, 500}
    ensures r.response.status != 200 ==> r.effects == []
    ensures r.response.status == 200 <==>
      && FieldTruthy(body, "ingredients")
      && !ConversionThrows(body["ingredients"])
      && var answer := GenerateTrimmed(env, TextRequest(prompt, body["ingredients"]).value);
         answer.Ok? && env.json5(answer.value).Ok? && !env.json5(answer.value).value.JNull?
    ensures r.response.status == 200 ==>
      r.effects == [WriteFile(ArtifactName(IngredientPrefix, env.ts), env.stringify(ResponseData(r.response)))]
    ensures r.response.status == 200 ==>
      var answer := GenerateTrimmed(env, TextRequest(prompt, body["ingredients"]).value);
      ResponseData(r.response) == JObject(UniversalIngredient(env.json5(answer.value).value).value)
    ensures FieldTruthy(body, "ingredients") && ConversionThrows(body["ingredients"]) ==>
      r == Outcome(TextResponse(500, TextError), [])
  {
    if !FieldTruthy(body, "ingredients") then
      Outcome(TextResponse(400, IngredientsMissing), [])
    else
      match TextRequest(prompt, body["ingredients"])
      case None => Outcome(TextResponse(500, TextError), [])
      case Some(request) =>
        match GenerateTrimmed(env, request)
        case Err(_) => Outcome(TextResponse(500, TextError), [])
        case Ok(text) =>
          match env.json5(text)
          case Err(message) => Outcome(TextResponse(500, ParseErrorPrefix + message), [])
          case Ok(payload) => SaveIngredient(payload, env, TextError, [])
  }

  /** As for /parse-image: the code as written fails exactly where the intended handler saves. */
  lemma ParseTextReferenceError(body: map<string, Json>, prompt: string, env: Env)
    ensures ParseText(body, prompt, env).response.status == 200 ==>
      ParseTextAsWritten(body, prompt, env) == Outcome(TextResponse(500, TextError), [])
    ensures ParseText(body, prompt, env).response.status != 200 ==>
      ParseTextAsWritten(body, prompt, env) == ParseText(body, prompt, env)
  {
  }

  /**
   * A concrete request that shows it: ingredients `["egg"]`, a backend answering
   * `{"item_name":"egg"}`. The intended handler saves the scan; the code as
   * written answers 500.
   */
  lemma ParseTextCounterexample(prompt: string, env: Env)
    requires env.generate(TextRequest(prompt, JArray([JString("egg")])).value) == Ok("{\"item_name\":\"egg\"}")
    requires env.json5("{\"item_name\":\"egg\"}") == Ok(JObject(map[ItemName := JString("egg")]))
    ensures ParseTextAsWritten(map["ingredients" := JArray([JString("egg")])], prompt, env)
            == Outcome(TextResponse(500, TextError), [])
    ensures ParseText(map["ingredients" := JArray([JString("egg")])], prompt, env).response.status == 200
  {
    var ingredients := JArray([JString("egg")]);
    var body := map["ingredients" := ingredients];
    assert FieldTruthy(body, "ingredients") && body["ingredients"] == ingredients;
    assert IngredientsText(ingredients) == Some("egg") by {
      var parts := seq(1, i requires 0 <= i < 1 => ElementString(ingredients.items[i]));
      assert AllSome(parts).value == ["egg"];
    }
    var raw := "{\"item_name\":\"egg\"}";
    assert Trim(raw) == raw by {
      assert raw[0] == '{' && raw[|raw| - 1] == '}';
      TrimUnchanged(raw);
    }
    ParseTextReferenceError(body, prompt, env);
  }

  // ---------------------------------------------------------------------------
  // POST /parse-uploaded-image
  // ---------------------------------------------------------------------------

  /**
   * POST /parse-uploaded-image: the stored photo is sent with its MIME type
   * (image/jpeg when that is empty); the normalized scan is saved, and only
   * then is the photo removed. A missing upload throws on `req.file.path` and,
   * like any failure but a parse error, answers 500 "Error processing uploaded
   * image"; no failure saves or removes anything.
   */
  function ParseUploadedImage(file: Option<Upload>, prompt: string, env: Env): (r: Outcome)
    ensures file.None? ==> r == Outcome(TextResponse(500, UploadedImageError), [])
    ensures r.response.status == 200 || r.response.status == 500
    ensures r.response.status == 500 ==> r.effects == []
    ensures r.response.status == 200 <==>
      && file.Some?
      && GenerateTrimmed(env, ImageRequest(prompt, file.value.contents, JString(file.value.mimetype))).Ok?
      && var text := GenerateTrimmed(env, ImageRequest(prompt, file.value.contents, JString(file.value.mimetype))).value;
         env.json5(text).Ok? && !env.json5(text).value.JNull?
    ensures r.response.status == 200 ==>
      var name := ArtifactName(IngredientPrefix, env.ts);
      var data := ResponseData(r.response);
      && r.response == SavedResponse(name, data)
      && r.effects == [WriteFile(name, env.stringify(data)), Unlink(file.value.path)]
      && data.JObject? && data.fields.Keys == IngredientFields
    ensures file.Some? ==>
      var answer := GenerateTrimmed(env, ImageRequest(prompt, file.value.contents, JString(file.value.mimetype)));
      && (answer.Err? ==> r == Outcome(TextResponse(500, UploadedImageError), []))
      && (answer.Ok? && env.json5(answer.value).Err? ==>
            r == Outcome(TextResponse(500, ParseErrorPrefix + env.json5(answer.value).error), []))
      && (answer.Ok? && env.json5(answer.value) == Ok(JNull) ==> r == Outcome(TextResponse(500, UploadedImageError), []))
      && (answer.Ok? && env.json5(answer.value).Ok? && !env.json5(answer.value).value.JNull? ==>
            ResponseData(r.response) == JObject(UniversalIngredient(env.json5(answer.value).value).value))
  {
    match file
    case None => Outcome(TextResponse(500, UploadedImageError), [])
    case Some(u) =>
      match GenerateTrimmed(env, ImageRequest(prompt, u.contents, JString(u.mimetype)))
      case Err(_) => Outcome(TextResponse(500, UploadedImageError), [])
      case Ok(text) =>
        match env.json5(text)
        case Err(message) => Outcome(TextResponse(500, ParseErrorPrefix + message), [])
        case Ok(payload) => SaveIngredient(payload, env, UploadedImageError, [Unlink(u.path)])
  }
}
